=== FILE: README.md ===
# nicehttp client core in Dafny

This project models the core of `nicehttp`, a small Go library that wraps a
`fasthttp` transport. The model covers the following parts:

- **Redirect loop (`Client.DoDeadline`).** The loop calls the transport at
  most `MaxRedirectCount + 1` times. A transport error is returned at once. A
  non-redirect response means success. A redirect without `Location` is an
  error. Any other redirect moves the request to its `Location`, resets the
  response, and tries again. When the attempts run out, the result is "too many
  redirects".
- **Header probe (`QueryHeaders`).** A HEAD request yields a content length,
  clamped to at least 0, and a flag. The flag holds exactly when
  `Accept-Ranges` is `bytes`.
- **Strategy choice (`Download`).** The download is chunked only when both the
  client and the URL accept ranges. A non-positive length on that path is an
  error. Every other case uses a single streamed GET (`DownloadSerially`).
- **Chunked download (`DownloadInChunks`).**
  - A feed loop steps `(Start, End)` by `ChunkSize`, clamped to the length,
    and pushes each range onto a channel until a deadline timer fires. It then
    closes the channel.
  - `NumWorkers` workers drain the channel. Each worker sets the `Range`
    header, sends the request with redirects, and writes the body at the
    range's start through a `WriterAtOffset`. A worker stops at its first
    error.
  - The download reports the first worker error, if any.
- **`WriterAtOffset.Write`.** It forwards every write to `WriteAt` at a
  fixed offset. Because its receiver is a value, the offset never moves.

How the model is built:

- **Transport.** The transport is an oracle, `answer(n, request)`: the reply
  to the n-th request it receives. `Http.Transport` records every request in a
  log.
- **Request and response.** `Http.Request` and `Http.Response` are classes,
  because the Go code updates them in place from hop to hop and from range to
  range.
- **Download target.** `Sinks.Sink` is a growable byte buffer with a capacity
  limit. It has `WriteAt` for random access and `Write` at a cursor.
  - A write past the end zero-fills the gap.
  - A write that does not fit comes back short, with an error.
- **Pure specifications.**
  - `Redirects.Follow` specifies the redirect loop.
  - `ByteRanges.Ranges` gives the feed loop's ranges in closed form.
  - `Chunks.Worker`, `Chunks.Pool`, `Chunks.InChunks` and `Chunks.Serially`
    specify the download paths.
- **Methods.** The redirect loop and the download methods of
  `NiceHttp.Client` are proved to leave exactly the sink, transport log,
  request and error that their specification functions compute.
  `QueryHeaders` has no specification function: its contract states its
  result outright. After a failed request, `DoDeadline` and `FetchRange`
  leave the response unspecified; the Go code does not read it then.
  Properties of the Go code are proved as lemmas about the specification
  functions.
- **Concurrency.** The model runs the goroutines one after another. The
  producer fills the queue and closes it. Then worker 0, worker 1, and so on
  each drain what is left.
  - This order is not itself one Go can take when there are more ranges than
    `NumWorkers`. The channel holds only `NumWorkers` ranges, so the producer
    blocks until a worker receives.
  - The sink, log and error it computes are those of a schedule Go can take.
    In that schedule the producer's sends interleave with the receives of the
    lowest-numbered worker that has not failed yet. The outcome is the same.
    Once every worker has failed, the timer may win at a different `select`:
    Go's producer can then leave a full channel only through the timer, while
    the model enqueues the rest.
  - With `NumWorkers == 0` the channel is unbuffered and has no receiver. The
    Go producer sends nothing and stops only when the timer fires. The model's
    queue instead holds ranges that nobody takes. The outcome is the same: no
    request, no write and no error.
- **Deadline.** The deadline timer is a `seq<bool>`. Entry k says whether the
  timer wins the `select` at the k-th send.

## Model

| member | source | states |
|---|---|---|
| Http.Request.constructor | client.go:118-119 | a fresh request carries the method and URI it was built with and no Range header |
| Http.Request.SetByteRange | client.go:229 | the Range header becomes `bytes=first-last`; method and URI are unchanged |
| Http.Response.Reset | client.go:104 | the response is blank again: no status, `Location`, length, `Accept-Ranges` or body left from the previous hop |
| Http.Transport.DoDeadline | client.go:89-91 | one transport call: the request is appended to the log; a failure is returned with the response untouched; otherwise no error and the response holds the answer |
| Http.IsRedirect | client.go:93 | `fasthttp.StatusCodeIsRedirect`: a status is a redirect exactly when it is a 3xx status other than 300, 304, 305 and 306 (sections 15.4.2-15.4.9 of RFC 9110) |
| Redirects.Budget | client.go:88 | the number of attempts `for i := 0; i <= MaxRedirectCount; i++` makes: none exactly when `MaxRedirectCount` is negative, and otherwise the last attempt's `i` is `MaxRedirectCount` |
| Redirects.Follow | client.go:87-108 | the redirect loop as a function: never more requests than the budget, and none exactly when the budget is 0 |
| Redirects.FollowMovesOnlyUri | client.go:88-105 | the loop changes nothing in the request but its URI: the request left behind is the caller's with the URI it ended at |
| Redirects.FollowFromIsFollow | client.go:87-108 | running the loop on top of an existing log of requests gives `Follow`'s outcome and final request, with `Follow`'s requests appended to that log |
| Redirects.FollowHops | client.go:88-105 | the requests sent form a redirect chain: the first is the caller's; each next is the previous one moved to the `Location` it was answered with; every answer but the last was a followable redirect; the request left behind is the last `Location` followed, or the original when none was |
| Redirects.FollowOutcome | client.go:88-107 | the outcome is decided by the answer to the last request: a transport error unchanged, a non-redirect as success, a redirect without `Location` as that error (with no further call), and a followable redirect only when all `MaxRedirectCount + 1` attempts are spent, as "too many redirects"; with no attempts at all the outcome is "too many redirects" |
| Redirects.FollowChain | client.go:88-107 | a chain of `hops` redirects ending in a non-redirect within the budget succeeds after hops + 1 calls with the request at the last `Location`; a chain at least as long as the budget fails with "too many redirects" after exactly budget calls |
| Redirects.FollowEndlessRedirects | client.go:88-107 | a transport that only redirects is called exactly `MaxRedirectCount + 1` times and the loop fails with "too many redirects" |
| NiceHttp.Client.constructor | client.go:23-41 | the client holds the transport, the range flag, the worker count, the chunk size and the redirect limit it is given |
| NiceHttp.Client.DoDeadline | client.go:87-108 | the loop makes exactly the calls `Follow` makes, leaves the request where `Follow` leaves it, returns `Follow`'s error, and on success leaves the final answer in the response |
| NiceHttp.Client.QueryHeaders | client.go:111-130 | on failure `(0, false)`; on success the length is the response's, clamped to 0 when non-positive, and ranges are accepted exactly when `Accept-Ranges` is `bytes`; the length is never negative |
| NiceHttp.Client.Download | client.go:133-151 | chunked exactly when the client and the URL both accept ranges; on that path a non-positive length is an error returned before any request or write, and otherwise the chunked download with `NumWorkers` workers; the serial download in every other case |
| NiceHttp.Client.DownloadSerially | client.go:183-197 | one GET with redirects; a failure is wrapped with the URL and nothing is written; otherwise the body is written at the sink's cursor and the sink's error is returned unchanged |
| NiceHttp.Client.DownloadInChunks | client.go:201-277 | the sink and the transport log end as `InChunks` says; the error is the first worker's, wrapped with the URL |
| NiceHttp.Client.FeedRanges | client.go:246-265 | the queue ends holding the ranges sent before the timer first fires, out of the closed-form sequence `Ranges` |
| NiceHttp.Client.FetchRange | client.go:229-237 | one range: the Range header is set, the request is sent with redirects, and the body is written at the range's start; the sink, the log, the request's URI and the error are those `RangeStep` computes; the request keeps its GET method and is left with the range's header as written |
| NiceHttp.Client.RunWorker | client.go:219-241 | the worker dequeues exactly as many ranges as `Worker` takes, and leaves the sink, the log and the error that `Worker` computes |
| Chunks.RangeQueue.constructor | client.go:212 | a new channel is open and empty |
| Chunks.RangeQueue.Send | client.go:258 | a send appends the range to the channel |
| Chunks.RangeQueue.Close | client.go:267 | closing keeps the pending ranges and marks the channel closed |
| Chunks.RangeQueue.Receive | client.go:228 | a receive yields the oldest pending range, or ends the loop once the channel is closed and drained |
| Chunks.FirstFire | client.go:255-258 | the first send attempt at which the timer wins: no earlier attempt fires, and it fires there unless every range was sent |
| Chunks.RangeStep | client.go:229-237 | one range's fetch and write only appends to the log and never moves the sink's cursor; an error names the worker and the range for a failed fetch, or the worker and the range's start for a failed write |
| Chunks.Enqueued | client.go:248-265 | the ranges the feed loop sends: a prefix of the closed-form sequence; the timer wins no `select` before they are all sent; when they are not all of the ranges, the timer won the next `select` |
| Chunks.Worker | client.go:228-238 | a worker takes at most the queue; without an error it takes all of it; with an error it took at least one range; it never moves the sink's cursor |
| Chunks.Pool | client.go:216-242 | the workers together take at most the queue and never move the sink's cursor |
| Chunks.InChunks | client.go:201-277 | the chunked download as written: the sink's cursor does not move, and an error is always the first worker error wrapped with the URL |
| Chunks.InChunksComplete | client.go:269-276 | the corrected chunked download: the sink's cursor does not move; an error is either the first worker error wrapped with the URL, or a report that fewer ranges than the resource has were fetched |
| Chunks.Serially | client.go:183-197 | the serial download: the log only grows, by at most the redirect budget; an error is a failed request wrapped with the URL, which writes nothing and leaves the cursor, or the sink's error; a success never moves the cursor back |
| Chunks.PoolFirstIsPool | client.go:216-242 | running the workers in turn while keeping only the first error seen gives the state `Pool` computes and the first of its failures |
| Chunks.EnqueuedPrefix | client.go:248-265 | the enqueued ranges are a prefix of the full sequence, and all of it exactly when the timer never fires during the feed |
| Chunks.WorkerStopsAtFirstError | client.go:228-238 | a worker only appends to the log; every range it took before the last was fetched and written without error (`CleanRun`); the last one's step produced the worker's error and final state; the error names the worker and the last range taken (the range for a failed fetch, its start for a failed write); without an error the whole queue ran cleanly into the worker's final state |
| Chunks.PoolDrainsUnlessAllFail | client.go:216-242 | each worker fails at most once, and ranges are left in the queue only when every worker failed |
| Chunks.InChunksFailsIffSomeWorkerFailed | client.go:272-276 | the chunked download fails exactly when some worker failed, with the first worker error; when it succeeds with at least one worker, every enqueued range was dequeued |
| Chunks.PoolOnEmptyQueue | client.go:228-240 | with nothing queued every worker returns without error, sending and writing nothing |
| Chunks.IncompleteFeedReportsSuccess | client.go:255-276 | as written, a feed cut short by the timer with no worker failing ends in success, although the ranges from the first timer win on were never dequeued; with no workers a non-empty resource ends in success with nothing sent or written |
| Chunks.CompleteRunTakesEveryRange | client.go:269-276 | the corrected download, which waits for every range, succeeds exactly when no worker failed and every range was dequeued; a feed cut short by the timer, or a non-empty resource with no workers, is an error; after a success the whole range sequence was enqueued; the sink and log are those of the download as written |
| Chunks.EarlyDeadlineReportsSuccess | client.go:255-276 | a timer that fires before the first send makes the chunked download succeed with no request sent and nothing written |
| Chunks.SeriallyOnFailingTransport | client.go:192-194 | when the transport fails, the serial download sends one request, writes nothing, and returns the failure wrapped with the URL |
| ByteRanges.Ranges | client.go:246-265 | there are ceil(length / ChunkSize) ranges, and range k is `(min(k*ChunkSize, length), min((k+1)*ChunkSize, length))` |
| ByteRanges.NumRangesIsCeiling | client.go:249-253 | the range count is the least number of chunks that reaches the length |
| ByteRanges.StartsBelowLength | client.go:249 | the loop guard: range k starts below the length exactly when k is below the range count |
| ByteRanges.RangesChain | client.go:246-265 | the first range starts at 0; each range starts where the previous one ends; each is non-empty and at most one chunk long; the last ends at the length |
| ByteRanges.RangeContaining | client.go:246-265 | read as half-open intervals, the ranges tile the resource: byte i lies in range k exactly when k = i / ChunkSize |
| ByteRanges.RangeOfByte | client.go:246-265 | every byte of the resource lies in some range of the sequence |
| ByteRanges.Header | client.go:229 | the Range header as written, `SetByteRange(Start, End)`: it starts at the range's start and asks for one byte more than the range holds |
| ByteRanges.IntendedHeader | client.go:229 | the corrected Range header, `SetByteRange(Start, End - 1)`: it starts at the range's start and asks for exactly the range's bytes |
| ByteRanges.WrittenHeadersOverlap | client.go:229 | with `SetByteRange(Start, End)` as written, the last byte asked for by range k is the first asked for by range k+1, and every range but the last asks for ChunkSize + 1 bytes |
| ByteRanges.IntendedHeadersPartition | client.go:229 | with `SetByteRange(Start, End - 1)` every byte is asked for by exactly one range; the first request starts at 0 and the last ends at length - 1 |
| ByteRanges.TwentyFiveMillionInTens | client.go:246-265 | 25 000 000 bytes in chunks of 10 000 000 give (0, 10000000), (10000000, 20000000), (20000000, 25000000) |
| Sinks.Place | writer.go:13 | after a write, the written bytes are where they land, the old bytes are elsewhere, and zeros fill any gap opened past the old end |
| Sinks.WriteAtResult | writer.go:13 | a write never reports more bytes than it was given; a short write always has an error; it succeeds exactly when the offset is non-negative and the bytes fit; a negative offset changes nothing; the bytes written are placed at the offset |
| Sinks.PlaceAgainHides | writer.go:12-13 | a second write at the same offset, at least as long as the first, leaves the sink as if only it had happened |
| Sinks.Sink.WriteAt | writer.go:13 | the sink's `WriteAt` leaves the contents and result that `WriteAtResult` gives, within the capacity |
| Sinks.Sink.Write | client.go:196 | a sequential write is a `WriteAt` at the cursor, and the cursor advances by the bytes written |
| Writer.WriterAtOffset.Write | writer.go:12-14 | `Write(b)` is `Src.WriteAt(b, Offset)` with its count and error returned unchanged; the adapter and the sink's cursor do not move |
| Writer.WriteTwice | writer.go:6-14 | two writes through one adapter land at the same offset; when the second is no shorter than the first, the sink ends as if only the second had happened |
| Reassembly.Serve | client.go:229 | a server's body for `bytes=first-last` has length `min(last + 1, length) - first` |
| Reassembly.ApplyAgreeing | client.go:235 | writes that agree with the resource, in any order, leave the resource's byte wherever some write landed and the old byte everywhere else |
| Reassembly.ServedBodies | client.go:229 | with the intended header a range's body is exactly its bytes; with the header as written it is those bytes plus the next range's first byte, except for the last range |
| Reassembly.ChunkWriteAgrees | client.go:235 | against an honest server, each range's body written at its start agrees with the resource, overlapping byte included |
| Reassembly.ChunkWriteCovers | client.go:235 | byte i is covered by the write of range i / ChunkSize |
| Reassembly.ChunksRebuildInAnyOrder | client.go:228-238 | all ranges' bodies, written at their starts in any order and any number of times into a sink of the resource's length, rebuild the resource |
| Reassembly.HonestRangeStep | client.go:229-237 | against an honest server one range's step succeeds without moving the request, writes the range's body at its start, and that body agrees with the resource and reaches the next range's start |
| Reassembly.HonestWorker | client.go:228-238 | against an honest server, a worker given the ranges from k on fetches and writes them all without error and completes the resource in the sink |
| Reassembly.HonestChunkedDownload | client.go:201-277 | against an honest server, with a worker and no early deadline, the chunked download succeeds and the sink holds the resource |
| Reassembly.CompleteDownloadRebuilds | client.go:199-276 | against an honest server, the corrected chunked download succeeds exactly when at least one worker runs and the timer does not fire during the feed, and its success means the sink holds the resource |
| Reassembly.StrategiesAgree | client.go:133-151 | against an honest server, with at least one worker and a timer that does not fire during the feed, the serial download into an empty sink and the chunked download into a sink of the resource's length both succeed with the same bytes |

## Left out

- The transport's internals are left out: the `fasthttp.Client`, connections, header parsing, `ContentLength()` and `BodyWriteTo`. They are library code. The transport is an oracle from (call number, request) to an error or a response.
- `BodyWriteTo` is taken to make exactly one `Write` of the whole body. A streamed body would reach `WriterAtOffset.Write` in several pieces. The adapter's offset never advances (`Writer.WriteTwice`), so every piece would land at the range's start. `Chunks.RangeStep`, `Reassembly.HonestRangeStep` and every lemma built on them depend on the one-`Write` reading.
- `fasthttp.StatusCodeIsRedirect` is taken to be the status set {301, 302, 303, 307, 308}.
- `URI.UpdateBytes` is left out. A `Location` replaces the URI as it is, with no resolution of relative references.
- Goroutines, `errgroup` and channel blocking are left out. The model runs the sequential order described above, whose outcome is that of a schedule Go can take. The channel's capacity is not modelled. The model also does not capture `errgroup.Wait`'s choice of the error that happened first in time: under this schedule that is the first failing worker.
- Wall-clock time is left out: `Timeout`, `time.Now().Add`, `DoTimeout` and the timer. A missed deadline on a request is a transport failure in the oracle. The feed loop's timer is a boolean sequence. `Do` and `DoTimeout` only compute a deadline and call `DoDeadline`.
- Error message formatting with `fmt.Errorf` and `errors.New` is left out. Errors are a datatype with one constructor per error site, which carries the worker, range, offset, URL and cause that the message would contain.
- `DownloadBytes` is left out, because `NewWriteBuffer` and `bytesutil.ExtendSlice` are not part of this model.
- `DownloadFile` is left out, because it creates and truncates a file. Its sink is the one `Sinks.Sink` stands for.
- `NewClient` and `WrapClient` are left out. They only fill in constant defaults: 10 MiB chunks, 16 redirects, one worker per CPU.
- mod.go, pool.go and the example program are left out. They delegate to a default client, reuse allocations, or print.
- `fasthttp.Response.Reset` clears more state than the fields modelled here: status, `Location`, length, `Accept-Ranges` and body.
- NiceHttp.Client.FeedRanges: requires `ChunkSize > 0`. With a chunk size of 0 or below, the Go loop never advances, and it stops only when the timer fires.
- NiceHttp.Client.FeedRanges: does not model 64-bit wrap-around. Go's `int` is 64 bits wide and the model's is unbounded. When `End + ChunkSize` exceeds the largest 64-bit integer, `End += ChunkSize` wraps negative in Go. The clamp to the length then never fires, and the loop sends ranges with a negative end. The model sends only the ranges of `ByteRanges.Ranges`.
- Redirects.Budget: does not model 64-bit wrap-around either. With `MaxRedirectCount` equal to the largest 64-bit integer, `i++` wraps in Go, `i <= MaxRedirectCount` always holds, and the loop ends only on a non-redirect, an error or a missing `Location`. The model gives that client `MaxRedirectCount + 1` attempts.
- NiceHttp.Client.Download: requires `ChunkSize > 0` and `NumWorkers >= 0` on the chunked path, for the reasons given for `FeedRanges` and `DownloadInChunks`.
- NiceHttp.Client.DownloadInChunks: requires `ChunkSize > 0`, for the reason given for `FeedRanges`.
- NiceHttp.Client.DownloadInChunks: requires `NumWorkers >= 0`. For a negative size, `make(chan ByteRange, c.NumWorkers)` panics before any worker starts. A panic is not a result the model can return.
- Sinks.Sink stands for both an `io.WriterAt` file and a growing in-memory buffer. Negative offsets and capacity errors are modelled. Other I/O errors of a real file are not.

## Findings

The feed loop's `End` is an exclusive bound: the last range ends at the length. `End` is then passed as the second argument of `SetByteRange`, which is the inclusive last byte of a `Range` header (section 14.1.2 of RFC 9110). So each request except the last asks for one byte more than its chunk, and that byte is also the first byte of the next range.

- `ByteRanges.WrittenHeadersOverlap` states the overlap.
- `ByteRanges.IntendedHeadersPartition` proves that `End - 1` partitions the resource.
- `Reassembly.ServedBodies` compares the two bodies a server sends.

The chunked download also reports success when the deadline timer wins a `select` before the last range is enqueued. The feed loop then breaks and closes the channel, the workers drain what was sent, and `g.Wait()` returns nil. The same happens with no workers at all. The comments above the function and above `g.Wait()` promise that every range is downloaded.

- `Chunks.IncompleteFeedReportsSuccess` states the success with ranges missing.
- `Chunks.InChunksComplete` is the corrected download: it errs with `ChunksIncomplete` when fewer ranges than the resource has were dequeued.
- `Chunks.CompleteRunTakesEveryRange` and `Reassembly.CompleteDownloadRebuilds` prove that its success means every range was fetched and the sink holds the resource.

The download methods keep the header as written and report success as the code does, because they model the code as it is. `Reassembly.ChunksRebuildInAnyOrder` proves that the overlap is harmless to the bytes rebuilt, because both writes of the shared byte carry the same value. It only costs one extra byte per request.

| source | as written | input that shows it | evidently intended | confidence | as-written member | corrected member |
|---|---|---|---|---|---|---|
| client.go:255-276 | the feed loop breaks when the timer wins; `g.Wait()` then returns nil when no worker failed, and nil is returned as success | length 30, ChunkSize 10, one worker, a timer that wins the second `select`, an honest server: only range (0, 10) is sent, as `bytes=0-10`; bytes 11-29 are never fetched (byte 10 arrives as the overlap byte of `bytes=0-10`), and the download reports success; with `NumWorkers == 0` nothing is fetched and the download reports success | an error whenever fewer ranges than the resource has were downloaded, as the comments on lines 199-200 and 269-270 promise | medium; not executed | Chunks.IncompleteFeedReportsSuccess | Reassembly.CompleteDownloadRebuilds |
| client.go:229 | `SetByteRange(r.Start, r.End)`, with `End` exclusive | length 25000000, ChunkSize 10000000: the first two requests ask for bytes 0-10000000 and 10000000-20000000, so byte 10000000 is asked for twice | `SetByteRange(r.Start, r.End - 1)` | high; not executed | ByteRanges.WrittenHeadersOverlap | ByteRanges.IntendedHeadersPartition |

=== FILE: chunks.dfy ===
/**
 * What the download paths compute, as functions of the transport's answers,
 * the sink and the deadline. Concurrency is sequentialised: the producer
 * fills the queue, then worker 0, 1, ... in turn drain it, each until the
 * queue is closed and empty or until its first error. The goroutines cannot
 * run in this order once the bounded channel fills. But the state and error
 * are those of an order they can take: the producer's sends interleaved with
 * the receives of the lowest-numbered worker that has not failed.
 */
module Chunks {
  import opened Common
  import opened Http
  import opened Sinks
  import opened ByteRanges
  import opened Errors
  import opened Redirects

  /** What a download depends on besides its arguments: the transport, the redirect budget, the sink's capacity. */
  datatype Env = Env(answer: (nat, RequestHead) -> Reply, budget: nat, limit: nat)

  /** What a download changes: the sink's bytes and cursor, and the transport's log. */
  datatype Store = Store(data: seq<Byte>, pos: nat, log: seq<RequestHead>)

  /** A download's end state and the error it returns, if any. */
  datatype Run = Run(store: Store, error: Option<Error>)

  // ---- The queue and the feed --------------------------------------------

  /**
   * The channel of byte ranges. Its capacity (`NumWorkers`) is not modelled;
   * the module comment gives the schedule whose outcome the model computes.
   */
  class RangeQueue {
    var pending: seq<ByteRange>
    var closed: bool

    constructor ()
      ensures pending == [] && !closed
    {
      pending, closed := [], false;
    }

    /** `ch <- r`; sending on a closed channel panics. */
    method Send(r: ByteRange)
      requires !closed
      modifies this
      ensures pending == old(pending) + [r] && !closed
    {
      pending := pending + [r];
    }

    /** `close(ch)`; closing twice panics. */
    method Close()
      requires !closed
      modifies this
      ensures closed && pending == old(pending)
    {
      closed := true;
    }

    /**
     * One step of `for r := range ch`: the oldest pending range, or None once
     * the channel is closed and drained. An open, empty channel would block.
     */
    method Receive() returns (r: Option<ByteRange>)
      requires closed || pending != []
      modifies this
      ensures closed == old(closed)
      ensures old(pending) == [] ==> r == None && pending == []
      ensures old(pending) != [] ==> r == Some(old(pending)[0]) && pending == old(pending)[1..]
    {
      if pending == [] {
        r := None;
      } else {
        r := Some(pending[0]);
        pending := pending[1..];
      }
    }
  }

  /** Whether the deadline timer wins the `select` at the k-th enqueue attempt. */
  predicate Fires(timer: seq<bool>, k: nat) {
    k < |timer| && timer[k]
  }

  /** The first attempt from `from` on at which the timer wins, or `count` if it never does before. */
  function FirstFire(timer: seq<bool>, from: nat, count: nat): (c: nat)
    requires from <= count
    ensures from <= c <= count
    ensures forall j :: from <= j < c ==> !Fires(timer, j)
    ensures c < count ==> Fires(timer, c)
    decreases count - from
  {
    if from == count || Fires(timer, from) then from else FirstFire(timer, from + 1, count)
  }

  /** The ranges the feed loop manages to enqueue before the deadline stops it. */
  function Enqueued(length: int, chunkSize: int, timer: seq<bool>): (q: seq<ByteRange>)
    requires chunkSize > 0
    ensures q <= Ranges(length, chunkSize)
    ensures forall j :: 0 <= j < |q| ==> !Fires(timer, j)
    ensures |q| < NumRanges(length, chunkSize) ==> Fires(timer, |q|)
  {
    Ranges(length, chunkSize)[..FirstFire(timer, 0, NumRanges(length, chunkSize))]
  }

  // ---- The workers ---------------------------------------------------------

  /** One worker's run: the state it leaves, how many ranges it dequeued, its error. */
  datatype WorkerRun = WorkerRun(store: Store, taken: nat, error: Option<Error>)

  /** What one range leaves: the state, the URI the worker's request has moved to, the error. */
  datatype Step = Step(store: Store, uri: string, error: Option<Error>)

  /**
   * One pass of a worker's loop with its request at `uri`: set the Range
   * header for `r`, send it following redirects, and write the body at the
   * range's start. A failure names the worker and the range (a failed fetch)
   * or its start (a failed write); the log only grows; the cursor stays.
   */
  function RangeStep(env: Env, id: nat, uri: string, r: ByteRange, st: Store): (s: Step)
    ensures st.log <= s.store.log && s.store.pos == st.pos
    ensures s.error.Some? ==>
      (s.error.value.ChunkFetchFailed? && s.error.value.worker == id && s.error.value.range == r)
      || (s.error.value.ChunkWriteFailed? && s.error.value.worker == id && s.error.value.offset == r.start)
  {
    var t := Follow(env.answer, |st.log|, RequestHead(Get, uri, Some(Header(r))), env.budget);
    var st1 := st.(log := st.log + t.sent);
    match t.outcome
    case Failed(e) => Step(st1, t.last.uri, Some(ChunkFetchFailed(id, r, e)))
    case Done(h) =>
      var w := WriteAtResult(st.data, env.limit, h.body, r.start);
      Step(st1.(data := w.data), t.last.uri,
           if w.err.Some? then Some(ChunkWriteFailed(id, r.start, w.err.value)) else None)
  }

  /**
   * Worker `id` draining `queue` with its request currently at `uri`: one
   * `RangeStep` per range, the request moved by the redirects of each for the
   * ranges after, stopping at its first error.
   */
  function Worker(env: Env, id: nat, uri: string, queue: seq<ByteRange>, st: Store): (w: WorkerRun)
    ensures w.taken <= |queue|
    ensures w.error.None? ==> w.taken == |queue|
    ensures w.error.Some? ==> w.taken > 0
    ensures w.store.pos == st.pos
    decreases |queue|
  {
    if queue == [] then WorkerRun(st, 0, None)
    else
      var s := RangeStep(env, id, uri, queue[0], st);
      if s.error.Some? then WorkerRun(s.store, 1, s.error)
      else
        var rest := Worker(env, id, s.uri, queue[1..], s.store);
        WorkerRun(rest.store, rest.taken + 1, rest.error)
  }

  /** One range off the front of a worker's queue. */
  lemma WorkerFront(env: Env, id: nat, uri: string, queue: seq<ByteRange>, st: Store)
    requires queue != []
    ensures var s := RangeStep(env, id, uri, queue[0], st);
      && (s.error.Some? ==> Worker(env, id, uri, queue, st) == WorkerRun(s.store, 1, s.error))
      && (s.error.None? ==>
            var rest := Worker(env, id, s.uri, queue[1..], s.store);
            Worker(env, id, uri, queue, st) == WorkerRun(rest.store, rest.taken + 1, rest.error))
  {
  }

  /** The pool's run: the state left, how many ranges were dequeued, each failed worker's error in turn. */
  datatype PoolRun = PoolRun(store: Store, taken: nat, failures: seq<Error>)

  /** Workers id, id+1, ..., workers-1, each starting from `url`, draining what is left of `queue`. */
  function Pool(env: Env, url: string, queue: seq<ByteRange>, st: Store, id: nat, workers: nat): (p: PoolRun)
    ensures p.taken <= |queue|
    ensures p.store.pos == st.pos
    decreases workers - id
  {
    if id >= workers then PoolRun(st, 0, [])
    else
      var w := Worker(env, id, url, queue, st);
      var rest := Pool(env, url, queue[w.taken..], w.store, id + 1, workers);
      PoolRun(rest.store, w.taken + rest.taken,
              (if w.error.Some? then [w.error.value] else []) + rest.failures)
  }

  /**
   * The pool as the loop in `Client.DownloadInChunks` runs it: workers id, ...,
   * workers-1 in turn, keeping only the first error met so far in `first`.
   */
  function PoolFirst(env: Env, url: string, queue: seq<ByteRange>, st: Store, id: nat, workers: nat, first: Option<Error>): Run
    decreases workers - id
  {
    if id >= workers then Run(st, first)
    else
      var w := Worker(env, id, url, queue, st);
      PoolFirst(env, url, queue[w.taken..], w.store, id + 1, workers, if first.None? then w.error else first)
  }

  /** Keeping only the first error gives the pool's state and the head of its failures. */
  lemma {:induction false} PoolFirstIsPool(
    env: Env, url: string, queue: seq<ByteRange>, st: Store, id: nat, workers: nat, first: Option<Error>)
    ensures var p := Pool(env, url, queue, st, id, workers);
      PoolFirst(env, url, queue, st, id, workers, first)
        == Run(p.store, if first.Some? then first else if p.failures == [] then None else Some(p.failures[0]))
    decreases workers - id
  {
    if id < workers {
      var w := Worker(env, id, url, queue, st);
      PoolFirstIsPool(env, url, queue[w.taken..], w.store, id + 1, workers, if first.None? then w.error else first);
    }
  }

  /**
   * `DownloadInChunks`: feed the ranges until the deadline, run the pool, and
   * report the first worker's error wrapped with the URL.
   */
  function InChunks(env: Env, url: string, length: int, chunkSize: int, workers: nat, timer: seq<bool>, st: Store): (r: Run)
    requires chunkSize > 0
    ensures r.store.pos == st.pos
    ensures r.error.Some? ==> r.error.value.ChunksFailed? && r.error.value.url == url
  {
    var p := Pool(env, url, Enqueued(length, chunkSize, timer), st, 0, workers);
    Run(p.store, if p.failures == [] then None else Some(ChunksFailed(url, p.failures[0])))
  }

  /**
   * The chunked download as its documentation describes it: it waits until
   * every range has been downloaded. So a run in which fewer ranges than the
   * resource has were dequeued is an error, even when no worker failed.
   */
  function InChunksComplete(env: Env, url: string, length: int, chunkSize: int, workers: nat, timer: seq<bool>, st: Store): (r: Run)
    requires chunkSize > 0
    ensures r.store.pos == st.pos
    ensures r.error.Some? ==>
      || (r.error.value.ChunksFailed? && r.error.value.url == url)
      || (r.error.value.ChunksIncomplete? && r.error.value.url == url
          && r.error.value.fetched < r.error.value.total == NumRanges(length, chunkSize))
  {
    var p := Pool(env, url, Enqueued(length, chunkSize, timer), st, 0, workers);
    var n := NumRanges(length, chunkSize);
    Run(p.store,
        if p.failures != [] then Some(ChunksFailed(url, p.failures[0]))
        else if p.taken < n then Some(ChunksIncomplete(url, p.taken, n))
        else None)
  }

  /** `DownloadSerially`: one GET, its body streamed to the sink's cursor. */
  function Serially(env: Env, url: string, st: Store): (r: Run)
    ensures st.log <= r.store.log && |r.store.log| <= |st.log| + env.budget
    ensures r.error.Some? ==> r.error.value.DownloadFailed? || r.error.value.SinkFailed?
    ensures r.error.Some? && r.error.value.DownloadFailed? ==>
      r.error.value.url == url && r.store.data == st.data && r.store.pos == st.pos
    ensures r.error.None? ==> r.store.pos >= st.pos
  {
    var t := Follow(env.answer, |st.log|, RequestHead(Get, url, None), env.budget);
    var st1 := st.(log := st.log + t.sent);
    match t.outcome
    case Failed(e) => Run(st1, Some(DownloadFailed(url, e)))
    case Done(h) =>
      var w := WriteAtResult(st.data, env.limit, h.body, st.pos);
      Run(st1.(data := w.data, pos := st.pos + w.n),
          if w.err.Some? then Some(SinkFailed(w.err.value)) else None)
  }

  // ---- Properties ------------------------------------------------------------

  /** When the deadline fires the queue holds a prefix of the ranges; when it does not, all of them. */
  lemma {:induction false} EnqueuedPrefix(length: int, chunkSize: int, timer: seq<bool>)
    requires chunkSize > 0
    ensures var q := Enqueued(length, chunkSize, timer);
      var all := Ranges(length, chunkSize);
      && q <= all
      && (q == all <==> forall j :: 0 <= j < |all| ==> !Fires(timer, j))
  {
    var all := Ranges(length, chunkSize);
    var c := FirstFire(timer, 0, |all|);
    if c < |all| {
      assert |Enqueued(length, chunkSize, timer)| < |all|;
    }
  }

  /**
   * The ranges `rs` fetched and written one after another with none failing:
   * the state and request URI they leave, or None when some range fails.
   */
  function CleanRun(env: Env, id: nat, uri: string, rs: seq<ByteRange>, st: Store): (c: Option<Step>)
    ensures c.Some? ==> c.value.error.None? && st.log <= c.value.store.log && c.value.store.pos == st.pos
    decreases |rs|
  {
    if rs == [] then Some(Step(st, uri, None))
    else
      var s := RangeStep(env, id, uri, rs[0], st);
      if s.error.Some? then None else CleanRun(env, id, s.uri, rs[1..], s.store)
  }

  /** The error a worker stops with names it and the last range it took. */
  lemma {:induction false} WorkerErrorNamesLast(env: Env, id: nat, uri: string, queue: seq<ByteRange>, st: Store)
    ensures var w := Worker(env, id, uri, queue, st);
      && st.log <= w.store.log
      && (w.error.Some? ==>
            (w.error.value.ChunkFetchFailed? && w.error.value.worker == id && w.error.value.range == queue[w.taken - 1])
            || (w.error.value.ChunkWriteFailed? && w.error.value.worker == id
                && w.error.value.offset == queue[w.taken - 1].start))
    decreases |queue|
  {
    if queue != [] {
      var s := RangeStep(env, id, uri, queue[0], st);
      if s.error.None? {
        WorkerErrorNamesLast(env, id, s.uri, queue[1..], s.store);
        var rest := Worker(env, id, s.uri, queue[1..], s.store);
        if rest.error.Some? {
          assert queue[1..][rest.taken - 1] == queue[rest.taken];
        }
      }
    }
  }

  /**
   * The ranges a worker took before the last ran without error, and the last
   * one's step left the worker's state and error; a worker without an error
   * ran the whole queue cleanly.
   */
  lemma {:induction false} WorkerCleanBeforeLast(env: Env, id: nat, uri: string, queue: seq<ByteRange>, st: Store)
    ensures var w := Worker(env, id, uri, queue, st);
      && (w.error.None? ==> CleanRun(env, id, uri, queue, st).Some? && CleanRun(env, id, uri, queue, st).value.store == w.store)
      && (w.error.Some? ==>
            && 0 < w.taken <= |queue|
            && CleanRun(env, id, uri, queue[..w.taken - 1], st).Some?
            && var c := CleanRun(env, id, uri, queue[..w.taken - 1], st).value;
               var last := RangeStep(env, id, c.uri, queue[w.taken - 1], c.store);
               last.store == w.store && last.error == w.error)
    decreases |queue|
  {
    if queue != [] {
      var s := RangeStep(env, id, uri, queue[0], st);
      if s.error.None? {
        WorkerCleanBeforeLast(env, id, s.uri, queue[1..], s.store);
        var rest := Worker(env, id, s.uri, queue[1..], s.store);
        assert Worker(env, id, uri, queue, st) == WorkerRun(rest.store, rest.taken + 1, rest.error);
        if rest.error.Some? {
          assert queue[1..][rest.taken - 1] == queue[rest.taken];
          assert queue[..rest.taken][1..] == queue[1..][..rest.taken - 1];
          assert queue[..rest.taken][0] == queue[0];
        }
      } else {
        assert queue[..0] == [];
      }
    }
  }

  /**
   * A worker dequeues in queue order and stops at its first error: the ranges
   * it took before the last were all fetched and written without error, the
   * last one's step produced the error and the state the worker leaves, and
   * that error names the last range; without an error the whole queue ran
   * cleanly into the state the worker leaves.
   */
  lemma WorkerStopsAtFirstError(env: Env, id: nat, uri: string, queue: seq<ByteRange>, st: Store)
    ensures var w := Worker(env, id, uri, queue, st);
      && st.log <= w.store.log
      && (w.error.None? ==> CleanRun(env, id, uri, queue, st).Some? && CleanRun(env, id, uri, queue, st).value.store == w.store)
      && (w.error.Some? ==>
            && 0 < w.taken <= |queue|
            && CleanRun(env, id, uri, queue[..w.taken - 1], st).Some?
            && var c := CleanRun(env, id, uri, queue[..w.taken - 1], st).value;
               var last := RangeStep(env, id, c.uri, queue[w.taken - 1], c.store);
               last.store == w.store && last.error == w.error)
      && (w.error.Some? ==>
            (w.error.value.ChunkFetchFailed? && w.error.value.worker == id && w.error.value.range == queue[w.taken - 1])
            || (w.error.value.ChunkWriteFailed? && w.error.value.worker == id
                && w.error.value.offset == queue[w.taken - 1].start))
  {
    WorkerErrorNamesLast(env, id, uri, queue, st);
    WorkerCleanBeforeLast(env, id, uri, queue, st);
  }

  /**
   * The pool leaves ranges in the queue only when every worker has failed, and
   * each worker fails at most once.
   */
  lemma {:induction false} PoolDrainsUnlessAllFail(
    env: Env, url: string, queue: seq<ByteRange>, st: Store, id: nat, workers: nat)
    requires id <= workers
    ensures var p := Pool(env, url, queue, st, id, workers);
      && |p.failures| <= workers - id
      && (p.taken < |queue| ==> |p.failures| == workers - id)
    decreases workers - id
  {
    if id < workers {
      var w := Worker(env, id, url, queue, st);
      var rest := Pool(env, url, queue[w.taken..], w.store, id + 1, workers);
      PoolDrainsUnlessAllFail(env, url, queue[w.taken..], w.store, id + 1, workers);
      var p := Pool(env, url, queue, st, id, workers);
      assert p.taken == w.taken + rest.taken;
      assert |p.failures| == (if w.error.Some? then 1 else 0) + |rest.failures|;
    }
  }

  /**
   * The chunked download fails exactly when some worker failed, and then with
   * the first worker error; when it succeeds with at least one worker, every
   * enqueued range was dequeued.
   */
  lemma {:induction false} InChunksFailsIffSomeWorkerFailed(
    env: Env, url: string, length: int, chunkSize: int, workers: nat, timer: seq<bool>, st: Store)
    requires chunkSize > 0
    ensures var q := Enqueued(length, chunkSize, timer);
      var p := Pool(env, url, q, st, 0, workers);
      var r := InChunks(env, url, length, chunkSize, workers, timer, st);
      && (r.error.Some? <==> p.failures != [])
      && (r.error.Some? ==> r.error.value == ChunksFailed(url, p.failures[0]))
      && (r.error.None? && workers > 0 ==> p.taken == |q|)
      && r.store == p.store
  {
    PoolDrainsUnlessAllFail(env, url, Enqueued(length, chunkSize, timer), st, 0, workers);
  }

  /** An empty queue: every worker finds the channel closed and drained and returns without error. */
  lemma {:induction false} PoolOnEmptyQueue(env: Env, url: string, st: Store, id: nat, workers: nat)
    ensures Pool(env, url, [], st, id, workers) == PoolRun(st, 0, [])
    decreases workers - id
  {
    if id < workers {
      PoolOnEmptyQueue(env, url, st, id + 1, workers);
    }
  }

  /**
   * As written, a deadline that fires before the first range is enqueued ends
   * the chunked download with success although nothing was fetched or written.
   */
  lemma {:induction false} EarlyDeadlineReportsSuccess(
    env: Env, url: string, length: int, chunkSize: int, workers: nat, timer: seq<bool>, st: Store)
    requires chunkSize > 0 && Fires(timer, 0)
    ensures InChunks(env, url, length, chunkSize, workers, timer, st) == Run(st, None)
  {
    assert Enqueued(length, chunkSize, timer) == [];
    PoolOnEmptyQueue(env, url, st, 0, workers);
  }

  /**
   * As written, the chunked download reports success whenever no worker
   * failed. That includes a deadline that cuts the feed short: the ranges from
   * the first timer win on were never enqueued, so never fetched. It also
   * includes a client with no workers: a non-empty resource gets no request at
   * all.
   */
  lemma {:induction false} IncompleteFeedReportsSuccess(
    env: Env, url: string, length: int, chunkSize: int, workers: nat, timer: seq<bool>, st: Store)
    requires chunkSize > 0
    ensures var n := NumRanges(length, chunkSize);
      var c := FirstFire(timer, 0, n);
      var p := Pool(env, url, Enqueued(length, chunkSize, timer), st, 0, workers);
      var r := InChunks(env, url, length, chunkSize, workers, timer, st);
      && (c < n && p.failures == [] ==> r.error == None && p.taken <= c < n)
      && (workers == 0 && length > 0 ==> 0 < n && r == Run(st, None))
  {
    var n := NumRanges(length, chunkSize);
    assert |Enqueued(length, chunkSize, timer)| == FirstFire(timer, 0, n);
    if length > 0 {
      StartsBelowLength(length, chunkSize, 0);
    }
  }

  /**
   * The corrected chunked download succeeds only when no worker failed and
   * every range was dequeued. So a deadline that cuts the feed short is an
   * error, and so is a non-empty resource with no workers. After a success
   * the whole range sequence was enqueued.
   */
  lemma {:induction false} CompleteRunTakesEveryRange(
    env: Env, url: string, length: int, chunkSize: int, workers: nat, timer: seq<bool>, st: Store)
    requires chunkSize > 0
    ensures var n := NumRanges(length, chunkSize);
      var p := Pool(env, url, Enqueued(length, chunkSize, timer), st, 0, workers);
      var r := InChunksComplete(env, url, length, chunkSize, workers, timer, st);
      && (r.error.None? <==> p.failures == [] && p.taken == n)
      && (FirstFire(timer, 0, n) < n ==> r.error.Some?)
      && (workers == 0 && length > 0 ==> r.error.Some?)
      && (r.error.None? ==> Enqueued(length, chunkSize, timer) == Ranges(length, chunkSize))
      && r.store == InChunks(env, url, length, chunkSize, workers, timer, st).store
  {
    var n := NumRanges(length, chunkSize);
    var q := Enqueued(length, chunkSize, timer);
    assert |q| == FirstFire(timer, 0, n);
    if length > 0 {
      StartsBelowLength(length, chunkSize, 0);
    }
    EnqueuedPrefix(length, chunkSize, timer);
  }

  /** A transport that fails every request: the serial download reports it wrapped with the URL and writes nothing. */
  lemma {:induction false} SeriallyOnFailingTransport(env: Env, url: string, st: Store)
    requires env.budget > 0
    requires forall m: nat, q: RequestHead :: env.answer(m, q).Failure?
    ensures var r := Serially(env, url, st);
      var e := env.answer(|st.log|, RequestHead(Get, url, None)).error;
      && r.error == Some(DownloadFailed(url, Transport(e)))
      && r.store.data == st.data && r.store.pos == st.pos
      && r.store.log == st.log + [RequestHead(Get, url, None)]
  {
    assert env.answer(|st.log|, RequestHead(Get, url, None)).Failure?;
  }
}

=== FILE: client.dfy ===
/**
 * `nicehttp.Client`: a transport wrapped with redirect following, a header
 * probe, and the two download strategies. The client's configuration is
 * never updated after construction, so it is held in constant fields; what
 * its methods change is the transport's log, the request and response
 * objects they are handed, and the sink.
 */
module NiceHttp {
  import opened Common
  import opened Http
  import opened Sinks
  import opened Writer
  import opened ByteRanges
  import opened Errors
  import opened Redirects
  import opened Chunks

  class Client {
    const instance: Transport
    /** Whether URLs that accept ranges are downloaded in parallel chunks. */
    const acceptsRanges: bool
    const numWorkers: int
    const chunkSize: int
    const maxRedirectCount: int

    constructor (instance: Transport, acceptsRanges: bool, numWorkers: int, chunkSize: int, maxRedirectCount: int)
      ensures this.instance == instance && this.acceptsRanges == acceptsRanges
      ensures this.numWorkers == numWorkers && this.chunkSize == chunkSize
      ensures this.maxRedirectCount == maxRedirectCount
    {
      this.instance := instance;
      this.acceptsRanges := acceptsRanges;
      this.numWorkers := numWorkers;
      this.chunkSize := chunkSize;
      this.maxRedirectCount := maxRedirectCount;
    }

    /** What a download through this client depends on when it writes into `sink`. */
    ghost function EnvFor(sink: Sink): Env {
      Env(instance.answer, Budget(maxRedirectCount), sink.limit)
    }

    /**
     * Sends `req`, following redirects: at most MaxRedirectCount + 1 calls to
     * the transport, a transport error returned at once, a redirect without
     * `Location` an error, the request moved to each `Location` followed.
     */
    method DoDeadline(req: Request, res: Response) returns (err: Option<Error>)
      modifies instance`log, req, res
      ensures var t := Follow(instance.answer, |old(instance.log)|, old(req.View()), Budget(maxRedirectCount));
        && instance.log == old(instance.log) + t.sent
        && req.View() == t.last
        && (t.outcome.Failed? ==> err == Some(t.outcome.error))
        && (t.outcome.Done? ==> err == None && res.View() == t.outcome.response)
    {
      ghost var budget := Budget(maxRedirectCount);
      ghost var t := FollowFrom(instance.answer, |instance.log|, req.View(), budget, instance.log);
      FollowFromIsFollow(instance.answer, |instance.log|, req.View(), budget, instance.log);
      var i := 0;
      while i <= maxRedirectCount
        invariant 0 <= i <= budget
        invariant FollowFrom(instance.answer, |instance.log|, req.View(), budget - i, instance.log) == t
        decreases budget - i
      {
        ghost var q := req.View();
        ghost var a := instance.answer(|instance.log|, q);
        var e := instance.DoDeadline(req, res);
        if e.Some? {
          assert t == Trace(Failed(Transport(a.error)), q, instance.log);
          return Some(Transport(e.value));
        }
        if !IsRedirect(res.status) {
          assert t == Trace(Done(a.head), q, instance.log);
          return None;
        }
        var location := res.location;
        if |location| == 0 {
          assert t == Trace(Failed(MissingLocation), q, instance.log);
          return Some(MissingLocation);
        }
        req.uri := location;
        res.Reset();
        i := i + 1;
      }
      return Some(TooManyRedirects);
    }

    /**
     * Learns a URL's length and whether it accepts byte ranges from a HEAD
     * request. Never fails: a failed request reads as (0, false), a
     * non-positive length as 0, and ranges are accepted only when
     * `Accept-Ranges` is exactly `bytes`.
     */
    method QueryHeaders(url: string) returns (contentLength: int, acceptsRanges: bool)
      modifies instance`log
      ensures var t := Follow(instance.answer, |old(instance.log)|, RequestHead(Head, url, None), Budget(maxRedirectCount));
        && instance.log == old(instance.log) + t.sent
        && contentLength >= 0
        && (t.outcome.Failed? ==> contentLength == 0 && !acceptsRanges)
        && (t.outcome.Done? ==>
              && contentLength == Max(t.outcome.response.contentLength, 0)
              && (acceptsRanges <==> t.outcome.response.acceptRanges == "bytes"))
    {
      var req := new Request(Head, url);
      var res := new Response();
      contentLength, acceptsRanges := 0, false;
      var err := DoDeadline(req, res);
      if err == None {
        contentLength := res.contentLength;
        if contentLength <= 0 {
          contentLength := 0;
        }
        acceptsRanges := res.acceptRanges == "bytes";
      }
    }

    /**
     * Picks the strategy: chunks exactly when the client and the URL both
     * accept ranges, and then only for a positive length (an error before any
     * request otherwise); a single streamed request in every other case.
     */
    method Download(w: Sink, url: string, contentLength: int, acceptsRanges: bool, timer: seq<bool>)
      returns (err: Option<Error>)
      requires w.Valid()
      requires this.acceptsRanges && acceptsRanges && contentLength > 0 ==> chunkSize > 0 && numWorkers >= 0
      modifies instance`log, w`data, w`pos
      ensures w.Valid()
      ensures var before := Store(old(w.data), old(w.pos), old(instance.log));
        var after := Run(Store(w.data, w.pos, instance.log), err);
        && (!(this.acceptsRanges && acceptsRanges) ==> after == Serially(EnvFor(w), url, before))
        && (this.acceptsRanges && acceptsRanges && contentLength <= 0 ==>
              after == Run(before, Some(UnknownContentLength(contentLength))))
        && (this.acceptsRanges && acceptsRanges && contentLength > 0 ==>
              after == InChunks(EnvFor(w), url, contentLength, chunkSize, numWorkers as nat, timer, before))
    {
      if this.acceptsRanges && acceptsRanges {
        if contentLength <= 0 {
          return Some(UnknownContentLength(contentLength));
        }
        err := DownloadInChunks(w, url, contentLength, timer);
        return err;
      }
      err := DownloadSerially(w, url);
    }

    /**
     * One GET, its body streamed into the sink at its cursor. A request error
     * is wrapped with the URL; the sink's error is returned as it is.
     */
    method DownloadSerially(w: Sink, url: string) returns (err: Option<Error>)
      requires w.Valid()
      modifies instance`log, w`data, w`pos
      ensures w.Valid()
      ensures Run(Store(w.data, w.pos, instance.log), err)
        == Serially(EnvFor(w), url, Store(old(w.data), old(w.pos), old(instance.log)))
    {
      var req := new Request(Get, url);
      var res := new Response();
      var e := DoDeadline(req, res);
      if e.Some? {
        return Some(DownloadFailed(url, e.value));
      }
      var n, we := w.Write(res.body);
      if we.Some? {
        return Some(SinkFailed(we.value));
      }
      return None;
    }

    /**
     * Downloads `length` bytes in ranges of `chunkSize`: the ranges are fed to
     * a queue until the deadline, the queue is closed, `numWorkers` workers
     * drain it, and the first worker error, if any, is returned wrapped with
     * the URL.
     */
    method DownloadInChunks(f: Sink, url: string, length: int, timer: seq<bool>) returns (err: Option<Error>)
      requires f.Valid() && chunkSize > 0 && numWorkers >= 0
      modifies instance`log, f`data
      ensures f.Valid()
      ensures Run(Store(f.data, f.pos, instance.log), err)
        == InChunks(EnvFor(f), url, length, chunkSize, numWorkers as nat, timer, Store(old(f.data), old(f.pos), old(instance.log)))
    {
      var queue := new RangeQueue();
      FeedRanges(queue, length, timer);
      queue.Close();
      ghost var env := EnvFor(f);
      var workers := numWorkers as nat;
      ghost var total := PoolFirst(env, url, queue.pending, Store(f.data, f.pos, instance.log), 0, workers, None);
      PoolFirstIsPool(env, url, queue.pending, Store(f.data, f.pos, instance.log), 0, workers, None);
      var first: Option<Error> := None;
      for i := 0 to workers
        invariant queue.closed && f.Valid() && f.pos == old(f.pos)
        invariant PoolFirst(env, url, queue.pending, Store(f.data, f.pos, instance.log), i, workers, first) == total
      {
        ghost var w := Worker(env, i, url, queue.pending, Store(f.data, f.pos, instance.log));
        ghost var q := queue.pending[w.taken..];
        var e := RunWorker(i, url, queue, f);
        assert queue.pending == q && Store(f.data, f.pos, instance.log) == w.store && e == w.error;
        if e.Some? && first.None? {
          first := e;
        }
      }
      if first.Some? {
        return Some(ChunksFailed(url, first.value));
      }
      return None;
    }

    /**
     * The feed loop: steps (start, end) by `chunkSize`, clamped to `length`,
     * and sends each range unless the deadline timer wins the `select` first.
     * `attempt` numbers the `select`s, for the timer oracle.
     */
    method FeedRanges(queue: RangeQueue, length: int, timer: seq<bool>)
      requires chunkSize > 0 && !queue.closed && queue.pending == []
      modifies queue
      ensures !queue.closed && queue.pending == Enqueued(length, chunkSize, timer)
    {
      ghost var n := NumRanges(length, chunkSize);
      var r := ByteRange(0, 0);
      var attempt: nat := 0;
      while r.end < length
        invariant !queue.closed
        invariant attempt <= n && queue.pending == Ranges(length, chunkSize)[..attempt]
        invariant attempt == 0 ==> r == ByteRange(0, 0)
        invariant attempt > 0 ==>
          length > 0 && r == ByteRange(Clamp(attempt * chunkSize, length), Clamp(attempt * chunkSize, length))
        invariant FirstFire(timer, attempt, n) == FirstFire(timer, 0, n)
        decreases length - r.end
      {
        StartsBelowLength(length, chunkSize, attempt);
        assert (attempt + 1) * chunkSize == attempt * chunkSize + chunkSize;
        r := r.(end := r.end + chunkSize);
        if r.end > length {
          r := r.(end := length);
        }
        if Fires(timer, attempt) {
          break;
        }
        queue.Send(r);
        r := r.(start := r.start + chunkSize);
        if r.start > length {
          r := r.(start := length);
        }
        attempt := attempt + 1;
      }
      if length > 0 && r.end >= length {
        StartsBelowLength(length, chunkSize, attempt);
      }
    }

    /**
     * One worker: until the queue is closed and drained, hands each range to
     * `FetchRange` with the same request and response, and returns at its
     * first error.
     */
    method RunWorker(id: nat, url: string, queue: RangeQueue, f: Sink) returns (err: Option<Error>)
      requires queue.closed && f.Valid()
      modifies instance`log, queue, f`data
      ensures queue.closed && f.Valid()
      ensures var w := Worker(EnvFor(f), id, url, old(queue.pending), Store(old(f.data), old(f.pos), old(instance.log)));
        && queue.pending == old(queue.pending)[w.taken..]
        && Store(f.data, f.pos, instance.log) == w.store
        && err == w.error
    {
      var req := new Request(Get, url);
      var res := new Response();
      ghost var env := EnvFor(f);
      ghost var q0 := queue.pending;
      ghost var total := Worker(env, id, url, q0, Store(f.data, f.pos, instance.log));
      ghost var taken := 0;
      while true
        invariant queue.closed && f.Valid() && f.pos == old(f.pos)
        invariant taken <= |q0| && queue.pending == q0[taken..]
        invariant req.verb == Get
        invariant var now := Worker(env, id, req.uri, queue.pending, Store(f.data, f.pos, instance.log));
          total.store == now.store && total.error == now.error && total.taken == taken + now.taken
        decreases |queue.pending|
      {
        ghost var st := Store(f.data, f.pos, instance.log);
        ghost var pending := queue.pending;
        var next := queue.Receive();
        if next.None? {
          assert pending == [] && total == WorkerRun(st, taken, None);
          return None;
        }
        var r := next.value;
        taken := taken + 1;
        ghost var s := RangeStep(env, id, req.uri, r, st);
        assert queue.pending == pending[1..] == q0[taken..];
        WorkerFront(env, id, req.uri, pending, st);
        var e := FetchRange(id, r, req, res, f);
        if e.Some? {
          assert total == WorkerRun(s.store, taken, s.error);
          return e;
        }
        assert Store(f.data, f.pos, instance.log) == s.store && req.uri == s.uri;
        ghost var rest := Worker(env, id, s.uri, queue.pending, s.store);
        assert total.store == rest.store && total.error == rest.error && total.taken == taken + rest.taken;
      }
    }

    /**
     * The body of a worker's loop for range `r`: `SetByteRange(r.start, r.end)`
     * on the worker's request, `DoDeadline` with redirects, and the body written
     * at `r.start` through a `WriterAtOffset`; either failure is wrapped with the
     * worker and the range (or its start).
     */
    method FetchRange(id: nat, r: ByteRange, req: Request, res: Response, f: Sink) returns (err: Option<Error>)
      requires f.Valid() && req.verb == Get
      modifies instance`log, req, res, f`data
      ensures f.Valid() && req.verb == Get
      ensures var s := RangeStep(EnvFor(f), id, old(req.uri), r, Store(old(f.data), f.pos, old(instance.log)));
        && Store(f.data, f.pos, instance.log) == s.store
        && req.uri == s.uri && req.range == Some(Header(r))
        && err == s.error
    {
      ghost var env := EnvFor(f);
      ghost var st := Store(f.data, f.pos, instance.log);
      req.SetByteRange(r.start, r.end);
      ghost var t := Follow(env.answer, |st.log|, RequestHead(Get, req.uri, Some(Header(r))), env.budget);
      assert req.View() == RequestHead(Get, req.uri, Some(Header(r)));
      FollowMovesOnlyUri(env.answer, |st.log|, req.View(), env.budget);
      var e := DoDeadline(req, res);
      assert instance.log == st.log + t.sent && req.uri == t.last.uri;
      if e.Some? {
        return Some(ChunkFetchFailed(id, r, e.value));
      }
      assert t.outcome.Done? && res.View() == t.outcome.response;
      var n, we := WriterAtOffset(f, r.start).Write(res.body);
      if we.Some? {
        return Some(ChunkWriteFailed(id, r.start, we.value));
      }
      return None;
    }
  }
}

=== FILE: common.dfy ===
/** Small helpers shared by every module of the model. */
module Common {

  /** An optional value, used where the source returns a nil-able error or a comma-ok pair. */
  datatype Option<+T> = None | Some(value: T)

  /** Bytes as the source's `[]byte` holds them. */
  type Byte = bv8

  function Min(a: int, b: int): int { if a <= b then a else b }

  function Max(a: int, b: int): int { if a >= b then a else b }
}

=== FILE: errors.dfy ===
/** The errors the client returns: one constructor per error site of the source, and one for the corrected chunked download. */
module Errors {
  import Http
  import ByteRanges
  import Sinks

  datatype Error =
    /** A transport error, passed on unchanged and never retried. */
    | Transport(transportError: Http.TransportError)
    /** A redirect came back without a `Location` to follow. */
    | MissingLocation
    /** Every attempt the redirect budget allows was answered by a redirect. */
    | TooManyRedirects
    /** A chunked download asked for with a non-positive length. */
    | UnknownContentLength(length: int)
    /** The serial path's request for `url` failed with `cause`. */
    | DownloadFailed(url: string, cause: Error)
    /** The sink's error from streaming the body on the serial path, passed on unchanged. */
    | SinkFailed(sinkError: Sinks.SinkError)
    /** Worker `worker` could not fetch `range`. */
    | ChunkFetchFailed(worker: nat, range: ByteRanges.ByteRange, cause: Error)
    /** Worker `worker` could not write a body at `offset`. */
    | ChunkWriteFailed(worker: nat, offset: int, sinkCause: Sinks.SinkError)
    /** The chunked download of `url` failed; `cause` is the first error a worker returned. */
    | ChunksFailed(url: string, cause: Error)
    /**
     * Only the corrected chunked download returns this: no worker failed, but
     * only `fetched` of the `total` ranges were dequeued and fetched.
     */
    | ChunksIncomplete(url: string, fetched: nat, total: nat)
}

=== FILE: http.dfy ===
/**
 * The part of the HTTP layer that the client sees: request and response
 * objects that are reused in place, and the transport, which is an external
 * collaborator. The transport is modelled as an oracle: the reply to the n-th
 * request it receives is `answer(n, request)`, whatever that is, and every
 * request it receives is appended to `log`.
 */
module Http {
  import opened Common

  /** The request method; requests default to GET, the header probe uses HEAD. */
  datatype Method = Get | Head

  /**
   * A `Range: bytes=first-last` request header, as set by `SetByteRange(first, last)`.
   * Both positions are inclusive (section 14.1.2 of RFC 9110).
   */
  datatype RangeHeader = RangeHeader(first: int, last: int)

  /** What a request carries to the transport. */
  datatype RequestHead = RequestHead(verb: Method, uri: string, range: Option<RangeHeader>)

  /**
   * What a response carries back. An absent `Location` or `Accept-Ranges` header
   * reads as the empty string, as `Header.Peek` returns it; `contentLength` is
   * whatever the transport parsed (negative when the length is unknown).
   */
  datatype ResponseHead = ResponseHead(
    status: int, location: string, contentLength: int, acceptRanges: string, body: seq<Byte>)

  /** An opaque error of the transport (timeout, connection refused, ...). */
  datatype TransportError = TransportError(code: nat)

  /** One exchange with the transport: it failed, or it produced a response. */
  datatype Reply = Failure(error: TransportError) | Answer(head: ResponseHead)

  /** A response object after `Reset`. */
  const BLANK: ResponseHead := ResponseHead(0, "", 0, "", [])

  /**
   * `fasthttp.StatusCodeIsRedirect`: the redirect statuses that carry a `Location`
   * to follow, 301, 302, 303, 307 and 308 (sections 15.4.2, 15.4.3, 15.4.4,
   * 15.4.8 and 15.4.9 of RFC 9110).
   */
  predicate IsRedirect(status: int)
    ensures IsRedirect(status) <==>
      300 < status < 309 && status != 304 && status != 305 && status != 306
  {
    status == 301 || status == 302 || status == 303 || status == 307 || status == 308
  }

  /** A reply that the redirect loop follows: a redirect status with a non-empty `Location`. */
  predicate Redirected(reply: Reply) {
    reply.Answer? && IsRedirect(reply.head.status) && |reply.head.location| > 0
  }

  /** A `fasthttp.Request`, updated in place across redirect hops and chunk requests. */
  class Request {
    var verb: Method
    var uri: string
    var range: Option<RangeHeader>

    /** `AcquireRequest` followed by `SetMethod` and `SetRequestURI`. */
    constructor (verb: Method, uri: string)
      ensures View() == RequestHead(verb, uri, None)
    {
      this.verb := verb;
      this.uri := uri;
      this.range := None;
    }

    function View(): RequestHead
      reads this
    {
      RequestHead(verb, uri, range)
    }

    /** `Header.SetByteRange(first, last)`. */
    method SetByteRange(first: int, last: int)
      modifies this`range
      ensures View() == old(View()).(range := Some(RangeHeader(first, last)))
    {
      range := Some(RangeHeader(first, last));
    }
  }

  /** A `fasthttp.Response`, filled in by the transport and reset between hops. */
  class Response {
    var status: int
    var location: string
    var contentLength: int
    var acceptRanges: string
    var body: seq<Byte>

    constructor ()
      ensures View() == BLANK
    {
      status, location, contentLength, acceptRanges, body := 0, "", 0, "", [];
    }

    function View(): ResponseHead
      reads this
    {
      ResponseHead(status, location, contentLength, acceptRanges, body)
    }

    method Fill(h: ResponseHead)
      modifies this
      ensures View() == h
    {
      status, location, contentLength, acceptRanges, body :=
        h.status, h.location, h.contentLength, h.acceptRanges, h.body;
    }

    method Reset()
      modifies this
      ensures View() == BLANK
    {
      Fill(BLANK);
    }
  }

  /** The `Transport` a client wraps: one request/response exchange per call. */
  class Transport {
    const answer: (nat, RequestHead) -> Reply
    var log: seq<RequestHead>

    constructor (answer: (nat, RequestHead) -> Reply)
      ensures this.answer == answer && log == []
    {
      this.answer := answer;
      log := [];
    }

    /**
     * `Transport.DoDeadline(req, res, deadline)`. The deadline is the transport's
     * business: a request that misses it comes back as a `Failure`.
     */
    method DoDeadline(req: Request, res: Response) returns (err: Option<TransportError>)
      modifies this`log, res
      ensures log == old(log) + [req.View()]
      ensures answer(|old(log)|, req.View()).Failure? ==>
        err == Some(answer(|old(log)|, req.View()).error) && res.View() == old(res.View())
      ensures answer(|old(log)|, req.View()).Answer? ==>
        err == None && res.View() == answer(|old(log)|, req.View()).head
    {
      var reply := answer(|log|, req.View());
      log := log + [req.View()];
      match reply
      case Failure(e) =>
        err := Some(e);
      case Answer(h) =>
        err := None;
        res.Fill(h);
    }
  }
}

=== FILE: ranges.dfy ===
/**
 * The byte ranges `DownloadInChunks` feeds to its workers, in closed form.
 * The k-th range (from 0) is `[min(k*chunkSize, length), min((k+1)*chunkSize, length))`
 * read as a half-open interval; `end` is exactly the value the feed loop holds.
 */
module ByteRanges {
  import opened Common
  import Http

  /** The source's `ByteRange{Start, End}`. */
  datatype ByteRange = ByteRange(start: int, end: int)

  /** The feed loop's clamp: `if x > length { x = length }`. */
  function Clamp(x: int, length: int): int { if x > length then length else x }

  function RangeAt(length: int, chunkSize: int, k: nat): ByteRange {
    ByteRange(Clamp(k * chunkSize, length), Clamp((k + 1) * chunkSize, length))
  }

  /** How many ranges the feed loop produces when the deadline never fires: ceil(length / chunkSize). */
  function NumRanges(length: int, chunkSize: int): nat
    requires chunkSize > 0
  {
    if length <= 0 then 0 else (length + chunkSize - 1) / chunkSize
  }

  function Ranges(length: int, chunkSize: int): (rs: seq<ByteRange>)
    requires chunkSize > 0
    ensures |rs| == NumRanges(length, chunkSize)
    ensures forall k :: 0 <= k < |rs| ==> rs[k] == RangeAt(length, chunkSize, k)
  {
    seq(NumRanges(length, chunkSize), k requires 0 <= k => RangeAt(length, chunkSize, k))
  }

  lemma {:induction false} MulMono(a: int, b: int, c: int)
    requires a <= b && c >= 0
    ensures a * c <= b * c
  {
    assert b * c - a * c == (b - a) * c;
  }

  /** NumRanges is the least count of chunks that reaches `length`. */
  lemma {:induction false} NumRangesIsCeiling(length: int, chunkSize: int)
    requires length > 0 && chunkSize > 0
    ensures NumRanges(length, chunkSize) >= 1
    ensures NumRanges(length, chunkSize) * chunkSize >= length
    ensures (NumRanges(length, chunkSize) - 1) * chunkSize < length
  {
    var n := NumRanges(length, chunkSize);
    var s := length + chunkSize - 1;
    assert n * chunkSize <= s < n * chunkSize + chunkSize by {
      assert s == n * chunkSize + s % chunkSize;
    }
    assert (n - 1) * chunkSize == n * chunkSize - chunkSize;
  }

  /** Range k starts inside the resource exactly when k is below the range count. */
  lemma {:induction false} StartsBelowLength(length: int, chunkSize: int, k: nat)
    requires length > 0 && chunkSize > 0
    ensures k * chunkSize < length <==> k < NumRanges(length, chunkSize)
  {
    var n := NumRanges(length, chunkSize);
    NumRangesIsCeiling(length, chunkSize);
    if k < n {
      MulMono(k, n - 1, chunkSize);
    } else {
      MulMono(n, k, chunkSize);
    }
  }

  /**
   * The feed loop's promise: the first range starts at 0, each range starts
   * where the previous one ends, each is non-empty and at most one chunk long,
   * and the last one ends at `length`.
   */
  lemma {:induction false} RangesChain(length: int, chunkSize: int)
    requires length > 0 && chunkSize > 0
    ensures var rs := Ranges(length, chunkSize);
      && |rs| > 0
      && rs[0].start == 0
      && rs[|rs| - 1].end == length
      && (forall k :: 0 <= k < |rs| - 1 ==> rs[k + 1].start == rs[k].end)
      && (forall k :: 0 <= k < |rs| ==> 0 <= rs[k].start < rs[k].end <= length)
      && (forall k :: 0 <= k < |rs| ==> rs[k].end - rs[k].start <= chunkSize)
  {
    var rs := Ranges(length, chunkSize);
    var n := |rs|;
    NumRangesIsCeiling(length, chunkSize);
    assert rs[n - 1].end == length by {
      assert n * chunkSize >= length;
      assert (n - 1 + 1) * chunkSize == n * chunkSize;
    }
    forall k | 0 <= k < n
      ensures 0 <= rs[k].start < rs[k].end <= length
      ensures rs[k].end - rs[k].start <= chunkSize
    {
      StartsBelowLength(length, chunkSize, k);
      MulMono(0, k, chunkSize);
      assert (k + 1) * chunkSize == k * chunkSize + chunkSize;
    }
  }

  /**
   * Read as half-open intervals the ranges tile `[0, length)`: byte i lies in
   * range k exactly when k == i / chunkSize, so in one range and one only.
   */
  lemma {:induction false} RangeContaining(length: int, chunkSize: int, i: int, k: nat)
    requires chunkSize > 0 && 0 <= i < length
    requires k < NumRanges(length, chunkSize)
    ensures RangeAt(length, chunkSize, k).start <= i < RangeAt(length, chunkSize, k).end
      <==> k == i / chunkSize
  {
    var q := i / chunkSize;
    var lo, hi, qlo := k * chunkSize, (k + 1) * chunkSize, q * chunkSize;
    assert i == qlo + i % chunkSize;
    assert qlo <= i < qlo + chunkSize;
    assert hi == lo + chunkSize;
    if k < q {
      MulMono(k + 1, q, chunkSize);
      assert hi <= qlo;
    } else if k > q {
      MulMono(q + 1, k, chunkSize);
      assert (q + 1) * chunkSize == qlo + chunkSize;
      assert lo >= qlo + chunkSize;
    }
    assert RangeAt(length, chunkSize, k).start <= i <==> lo <= i;
    assert i < RangeAt(length, chunkSize, k).end <==> i < hi;
  }

  /** Every byte of the resource has its range, and that range is in the sequence. */
  lemma {:induction false} RangeOfByte(length: int, chunkSize: int, i: int)
    requires chunkSize > 0 && 0 <= i < length
    ensures i / chunkSize < NumRanges(length, chunkSize)
    ensures RangeAt(length, chunkSize, i / chunkSize).start <= i < RangeAt(length, chunkSize, i / chunkSize).end
  {
    StartsBelowLength(length, chunkSize, i / chunkSize);
    assert (i / chunkSize) * chunkSize <= i;
    RangeContaining(length, chunkSize, i, i / chunkSize);
  }

  // ---- The Range header each worker sends ----------------------------------

  /**
   * As written: `SetByteRange(r.Start, r.End)` passes the exclusive `End` as the
   * inclusive last-byte position.
   */
  function Header(r: ByteRange): (h: Http.RangeHeader)
    ensures h.first == r.start && h.last + 1 - h.first == (r.end - r.start) + 1
  {
    Http.RangeHeader(r.start, r.end)
  }

  /**
   * With the header as written, consecutive requests overlap: the last byte
   * asked for by range k is the first byte asked for by range k+1, and every
   * range but the last asks for one byte more than a chunk.
   */
  lemma {:induction false} WrittenHeadersOverlap(length: int, chunkSize: int, k: nat)
    requires length > 0 && chunkSize > 0
    requires k + 1 < NumRanges(length, chunkSize)
    ensures Header(RangeAt(length, chunkSize, k)).last == Header(RangeAt(length, chunkSize, k + 1)).first
    ensures Header(RangeAt(length, chunkSize, k)).last - Header(RangeAt(length, chunkSize, k)).first + 1
      == chunkSize + 1
  {
    StartsBelowLength(length, chunkSize, k + 1);
    assert (k + 1) * chunkSize == k * chunkSize + chunkSize;
    MulMono(k, k + 1, chunkSize);
  }

  /** The header the range-inclusive convention calls for: last byte `end - 1`. */
  function IntendedHeader(r: ByteRange): (h: Http.RangeHeader)
    ensures h.first == r.start && h.last + 1 - h.first == r.end - r.start
  {
    Http.RangeHeader(r.start, r.end - 1)
  }

  /**
   * With the intended header the requests partition the resource: byte i is
   * asked for by range i / chunkSize and by no other, the first request starts
   * at 0 and the last one ends at `length - 1`.
   */
  lemma {:induction false} IntendedHeadersPartition(length: int, chunkSize: int, i: int)
    requires length > 0 && chunkSize > 0 && 0 <= i < length
    ensures var n := NumRanges(length, chunkSize);
      && IntendedHeader(RangeAt(length, chunkSize, 0)).first == 0
      && IntendedHeader(RangeAt(length, chunkSize, n - 1)).last == length - 1
      && i / chunkSize < n
      && forall k: nat :: k < n ==>
           (IntendedHeader(RangeAt(length, chunkSize, k)).first <= i
              <= IntendedHeader(RangeAt(length, chunkSize, k)).last
            <==> k == i / chunkSize)
  {
    var n := NumRanges(length, chunkSize);
    RangesChain(length, chunkSize);
    assert RangeAt(length, chunkSize, 0) == Ranges(length, chunkSize)[0];
    assert RangeAt(length, chunkSize, n - 1) == Ranges(length, chunkSize)[n - 1];
    RangeOfByte(length, chunkSize, i);
    forall k: nat | k < n
      ensures IntendedHeader(RangeAt(length, chunkSize, k)).first <= i
                <= IntendedHeader(RangeAt(length, chunkSize, k)).last
              <==> k == i / chunkSize
    {
      RangeContaining(length, chunkSize, i, k);
    }
  }

  /** The example of 25 000 000 bytes in chunks of 10 000 000, as the code produces it. */
  lemma TwentyFiveMillionInTens()
    ensures Ranges(25_000_000, 10_000_000)
      == [ByteRange(0, 10_000_000), ByteRange(10_000_000, 20_000_000), ByteRange(20_000_000, 25_000_000)]
    ensures Header(Ranges(25_000_000, 10_000_000)[0]) == Http.RangeHeader(0, 10_000_000)
    ensures IntendedHeader(Ranges(25_000_000, 10_000_000)[0]) == Http.RangeHeader(0, 9_999_999)
  {
    assert NumRanges(25_000_000, 10_000_000) == 3;
  }
}

=== FILE: reassembly.dfy ===
/**
 * Why the chunked download rebuilds the resource. Against a server that
 * answers each range request with the bytes it names, the ranges' bodies,
 * written at their starts in any order, give back the resource byte for byte,
 * even though with the header as written neighbouring bodies share a byte:
 * that byte has the same value in both.
 */
module Reassembly {
  import opened Common
  import opened Http
  import opened Sinks
  import opened ByteRanges
  import opened Redirects
  import opened Chunks

  /**
   * The body a server holding `content` sends for a satisfiable range: the
   * bytes first..last, with a last position past the end cut back to the end
   * (section 14.1.2 of RFC 9110).
   */
  function Serve(content: seq<Byte>, h: RangeHeader): (body: seq<Byte>)
    requires 0 <= h.first < |content| && h.first <= h.last
    ensures |body| == Min(h.last + 1, |content|) - h.first
  {
    content[h.first..Min(h.last + 1, |content|)]
  }

  /** The transport answers every satisfiable range request, at once and without redirect, with the bytes it names. */
  ghost predicate ServesRanges(answer: (nat, RequestHead) -> Reply, content: seq<Byte>) {
    forall n: nat, q: RequestHead {:trigger answer(n, q)} ::
      q.range.Some? && 0 <= q.range.value.first < |content| && q.range.value.first <= q.range.value.last ==>
        && answer(n, q).Answer?
        && !IsRedirect(answer(n, q).head.status)
        && answer(n, q).head.body == Serve(content, q.range.value)
  }

  /** The transport answers every request without a Range header, at once, with the whole resource. */
  ghost predicate ServesWhole(answer: (nat, RequestHead) -> Reply, content: seq<Byte>) {
    forall n: nat, q: RequestHead {:trigger answer(n, q)} ::
      q.range.None? ==>
        answer(n, q).Answer? && !IsRedirect(answer(n, q).head.status) && answer(n, q).head.body == content
  }

  /** A random-access write: `bytes` at `offset`. */
  datatype Chunk = Chunk(offset: nat, bytes: seq<Byte>)

  /** The sink's contents after the writes, in the order given. */
  function Apply(data: seq<Byte>, writes: seq<Chunk>): seq<Byte>
    decreases |writes|
  {
    if writes == [] then data else Apply(Place(data, writes[0].bytes, writes[0].offset), writes[1..])
  }

  /** A write that lies within `content` and carries exactly its bytes there. */
  predicate Agrees(c: Chunk, content: seq<Byte>) {
    c.offset + |c.bytes| <= |content| && c.bytes == content[c.offset..c.offset + |c.bytes|]
  }

  predicate Covers(c: Chunk, i: int) {
    c.offset <= i < c.offset + |c.bytes|
  }

  /**
   * Writes that agree with `content`, in any order, leave `content` at every
   * position some write covers and the old bytes everywhere else.
   */
  lemma {:induction false} ApplyAgreeing(data: seq<Byte>, writes: seq<Chunk>, content: seq<Byte>)
    requires |data| == |content|
    requires forall c :: c in writes ==> Agrees(c, content)
    ensures |Apply(data, writes)| == |content|
    ensures forall i, c :: 0 <= i < |content| && c in writes && Covers(c, i) ==> Apply(data, writes)[i] == content[i]
    ensures forall i :: 0 <= i < |content| && (forall c :: c in writes ==> !Covers(c, i)) ==>
      Apply(data, writes)[i] == data[i]
    decreases |writes|
  {
    if writes != [] {
      var w := writes[0];
      var d1 := Place(data, w.bytes, w.offset);
      assert Agrees(w, content);
      assert |d1| == |content|;
      forall c | c in writes[1..]
        ensures Agrees(c, content)
      {
        assert c in writes;
      }
      ApplyAgreeing(d1, writes[1..], content);
      var result := Apply(data, writes);
      assert result == Apply(d1, writes[1..]) && |result| == |content|;
      assert writes == [w] + writes[1..];
      forall i, c | 0 <= i < |content| && c in writes && Covers(c, i)
        ensures result[i] == content[i]
      {
        if c != w {
          assert c in writes[1..];
        } else if !(exists c' :: c' in writes[1..] && Covers(c', i)) {
          assert d1[i] == w.bytes[i - w.offset];
        }
      }
      forall i | 0 <= i < |content| && (forall c :: c in writes ==> !Covers(c, i))
        ensures result[i] == data[i]
      {
        assert !Covers(w, i);
        forall c | c in writes[1..]
          ensures !Covers(c, i)
        {
          assert c in writes;
        }
      }
    }
  }

  /** The write a worker makes for range k against an honest server: the range's body at its start. */
  function ChunkWrite(content: seq<Byte>, chunkSize: int, k: nat): Chunk
    requires chunkSize > 0 && k < NumRanges(|content|, chunkSize)
  {
    var r := RangeAt(|content|, chunkSize, k);
    StartsBelowLength(|content|, chunkSize, k);
    MulMono(0, k, chunkSize);
    assert (k + 1) * chunkSize == k * chunkSize + chunkSize;
    Chunk(r.start, Serve(content, Header(r)))
  }

  function AllChunkWrites(content: seq<Byte>, chunkSize: int): seq<Chunk>
    requires chunkSize > 0
  {
    seq(NumRanges(|content|, chunkSize), k requires 0 <= k < NumRanges(|content|, chunkSize) =>
      ChunkWrite(content, chunkSize, k))
  }

  /**
   * What a server sends for range k: with the intended header exactly the
   * range's bytes; with the header as written the same bytes followed by the
   * next range's first byte, for every range but the last.
   */
  lemma {:induction false} ServedBodies(content: seq<Byte>, chunkSize: int, k: nat)
    requires chunkSize > 0 && k < NumRanges(|content|, chunkSize)
    ensures var r := RangeAt(|content|, chunkSize, k);
      && 0 <= r.start < r.end <= |content|
      && Serve(content, IntendedHeader(r)) == content[r.start..r.end]
      && (k + 1 < NumRanges(|content|, chunkSize) ==>
            r.end < |content| && Serve(content, Header(r)) == content[r.start..r.end] + [content[r.end]])
      && (k + 1 == NumRanges(|content|, chunkSize) ==> Serve(content, Header(r)) == content[r.start..r.end])
  {
    var length, n := |content|, NumRanges(|content|, chunkSize);
    var r := RangeAt(length, chunkSize, k);
    StartsBelowLength(length, chunkSize, k);
    MulMono(0, k, chunkSize);
    assert (k + 1) * chunkSize == k * chunkSize + chunkSize;
    if k + 1 < n {
      StartsBelowLength(length, chunkSize, k + 1);
      assert r.end == (k + 1) * chunkSize < length;
      assert content[r.start..r.end + 1] == content[r.start..r.end] + [content[r.end]];
    } else {
      NumRangesIsCeiling(length, chunkSize);
      assert (k + 1) * chunkSize >= length;
    }
  }

  /** Each range's write agrees with the resource. */
  lemma {:induction false} ChunkWriteAgrees(content: seq<Byte>, chunkSize: int, k: nat)
    requires chunkSize > 0 && k < NumRanges(|content|, chunkSize)
    ensures Agrees(ChunkWrite(content, chunkSize, k), content)
  {
    StartsBelowLength(|content|, chunkSize, k);
    MulMono(0, k, chunkSize);
  }

  /** Byte i is covered by the write of range i / chunkSize. */
  lemma {:induction false} ChunkWriteCovers(content: seq<Byte>, chunkSize: int, i: int)
    requires chunkSize > 0 && 0 <= i < |content|
    ensures i / chunkSize < NumRanges(|content|, chunkSize)
    ensures Covers(ChunkWrite(content, chunkSize, i / chunkSize), i)
  {
    RangeOfByte(|content|, chunkSize, i);
  }

  /**
   * Every range's body written at its start, in any order and even more than
   * once, into a sink of the resource's length, rebuilds the resource.
   */
  lemma {:induction false} ChunksRebuildInAnyOrder(
    data: seq<Byte>, content: seq<Byte>, chunkSize: int, writes: seq<Chunk>)
    requires chunkSize > 0 && |data| == |content|
    requires forall c :: c in writes ==> c in AllChunkWrites(content, chunkSize)
    requires forall c :: c in AllChunkWrites(content, chunkSize) ==> c in writes
    ensures Apply(data, writes) == content
  {
    var all := AllChunkWrites(content, chunkSize);
    forall k | 0 <= k < |all|
      ensures Agrees(all[k], content)
    {
      ChunkWriteAgrees(content, chunkSize, k);
    }
    forall c | c in writes
      ensures Agrees(c, content)
    {
      assert c in all;
    }
    ApplyAgreeing(data, writes, content);
    forall i | 0 <= i < |content|
      ensures Apply(data, writes)[i] == content[i]
    {
      ChunkWriteCovers(content, chunkSize, i);
      assert all[i / chunkSize] in writes;
    }
  }

  /**
   * Writing a chunk that agrees with `content` into data that already agrees
   * with it below the chunk's offset leaves data that agrees with it up to any
   * bound the chunk reaches.
   */
  lemma PlaceKeepsPrefix(data: seq<Byte>, content: seq<Byte>, c: Chunk, bound: int)
    requires |data| == |content| && Agrees(c, content) && bound <= c.offset + |c.bytes|
    requires forall i :: 0 <= i < c.offset ==> data[i] == content[i]
    ensures |Place(data, c.bytes, c.offset)| == |content|
    ensures forall i :: 0 <= i < bound ==> Place(data, c.bytes, c.offset)[i] == content[i]
  {
    var placed := Place(data, c.bytes, c.offset);
    forall i | 0 <= i < bound
      ensures placed[i] == content[i]
    {
      if i >= c.offset {
        assert placed[i] == c.bytes[i - c.offset];
      }
    }
  }

  /** Against an honest server, range k's step writes its body at its start and moves nothing else. */
  lemma {:induction false} HonestRangeStep(
    env: Env, id: nat, uri: string, content: seq<Byte>, chunkSize: int, k: nat, st: Store)
    requires chunkSize > 0 && env.budget > 0
    requires ServesRanges(env.answer, content)
    requires k < NumRanges(|content|, chunkSize)
    requires |st.data| == |content| <= env.limit
    ensures var c := ChunkWrite(content, chunkSize, k);
      var s := RangeStep(env, id, uri, RangeAt(|content|, chunkSize, k), st);
      && s.error == None && s.uri == uri && s.store.data == Place(st.data, c.bytes, c.offset)
      && Agrees(c, content) && RangeAt(|content|, chunkSize, k).start == c.offset
      && RangeAt(|content|, chunkSize, k + 1).start <= c.offset + |c.bytes|
  {
    var r := RangeAt(|content|, chunkSize, k);
    ServedBodies(content, chunkSize, k);
    ChunkWriteAgrees(content, chunkSize, k);
    StartsBelowLength(|content|, chunkSize, k);
    MulMono(0, k, chunkSize);
    var req := RequestHead(Get, uri, Some(Header(r)));
    var a := env.answer(|st.log|, req);
    assert a.Answer? && !IsRedirect(a.head.status) && a.head.body == Serve(content, Header(r));
    var t := Follow(env.answer, |st.log|, req, env.budget);
    assert t == Trace(Done(a.head), req, [req]);
    var w := WriteAtResult(st.data, env.limit, a.head.body, r.start);
    assert w.err.None? && w.data == Place(st.data, a.head.body, r.start);
  }

  /**
   * A worker facing an honest server, given the ranges from k on and a sink
   * that already holds the resource below range k's start, fetches and writes
   * them all without error and leaves the whole resource in the sink.
   */
  lemma {:induction false} HonestWorker(
    env: Env, id: nat, uri: string, content: seq<Byte>, chunkSize: int, k: nat, st: Store)
    requires chunkSize > 0 && |content| > 0 && env.budget > 0
    requires ServesRanges(env.answer, content)
    requires k <= NumRanges(|content|, chunkSize)
    requires |st.data| == |content| <= env.limit
    requires forall i :: 0 <= i < RangeAt(|content|, chunkSize, k).start ==> st.data[i] == content[i]
    ensures var w := Worker(env, id, uri, Ranges(|content|, chunkSize)[k..], st);
      w.error == None && w.store.data == content && w.store.pos == st.pos
    decreases NumRanges(|content|, chunkSize) - k
  {
    var length, n := |content|, NumRanges(|content|, chunkSize);
    var queue := Ranges(length, chunkSize)[k..];
    NumRangesIsCeiling(length, chunkSize);
    if k == n {
      MulMono(n, k, chunkSize);
      assert st.data == content;
    } else {
      var r := RangeAt(length, chunkSize, k);
      assert queue[0] == r;
      var c := ChunkWrite(content, chunkSize, k);
      HonestRangeStep(env, id, uri, content, chunkSize, k, st);
      var st2 := RangeStep(env, id, uri, r, st).store;
      PlaceKeepsPrefix(st.data, content, c, RangeAt(length, chunkSize, k + 1).start);
      assert queue[1..] == Ranges(length, chunkSize)[k + 1..];
      HonestWorker(env, id, uri, content, chunkSize, k + 1, st2);
    }
  }

  /**
   * Against an honest server, with at least one worker and a deadline that
   * lets every range be enqueued, the chunked download succeeds and leaves
   * the resource in a sink of its length.
   */
  lemma {:induction false} HonestChunkedDownload(
    env: Env, url: string, content: seq<Byte>, chunkSize: int, workers: nat, timer: seq<bool>, st: Store)
    requires chunkSize > 0 && |content| > 0 && workers > 0 && env.budget > 0
    requires ServesRanges(env.answer, content)
    requires |st.data| == |content| <= env.limit
    requires forall j :: 0 <= j < NumRanges(|content|, chunkSize) ==> !Fires(timer, j)
    ensures var r := InChunks(env, url, |content|, chunkSize, workers, timer, st);
      r.error == None && r.store.data == content
  {
    var length := |content|;
    var queue := Enqueued(length, chunkSize, timer);
    EnqueuedPrefix(length, chunkSize, timer);
    assert queue == Ranges(length, chunkSize)[0..];
    HonestWorker(env, 0, url, content, chunkSize, 0, st);
    var w := Worker(env, 0, url, queue, st);
    assert queue[w.taken..] == [];
    PoolOnEmptyQueue(env, url, w.store, 1, workers);
  }

  /**
   * The corrected chunked download, against an honest server, succeeds exactly
   * when at least one worker runs and the deadline lets every range be
   * enqueued. Its success always means the sink holds the resource.
   */
  lemma {:induction false} CompleteDownloadRebuilds(
    env: Env, url: string, content: seq<Byte>, chunkSize: int, workers: nat, timer: seq<bool>, st: Store)
    requires chunkSize > 0 && |content| > 0 && env.budget > 0
    requires ServesRanges(env.answer, content)
    requires |st.data| == |content| <= env.limit
    ensures var r := InChunksComplete(env, url, |content|, chunkSize, workers, timer, st);
      && (r.error.None? ==> r.store.data == content)
      && (r.error.None? <==> workers > 0 && forall j :: 0 <= j < NumRanges(|content|, chunkSize) ==> !Fires(timer, j))
  {
    var length, n := |content|, NumRanges(|content|, chunkSize);
    var r := InChunksComplete(env, url, length, chunkSize, workers, timer, st);
    CompleteRunTakesEveryRange(env, url, length, chunkSize, workers, timer, st);
    EnqueuedPrefix(length, chunkSize, timer);
    if workers > 0 && forall j :: 0 <= j < n ==> !Fires(timer, j) {
      HonestChunkedDownload(env, url, content, chunkSize, workers, timer, st);
      InChunksFailsIffSomeWorkerFailed(env, url, length, chunkSize, workers, timer, st);
      assert r.error.None?;
    }
    if r.error.None? {
      assert Enqueued(length, chunkSize, timer) == Ranges(length, chunkSize);
      assert forall j :: 0 <= j < n ==> !Fires(timer, j);
      HonestChunkedDownload(env, url, content, chunkSize, workers, timer, st);
    }
  }

  /**
   * Both strategies give the same bytes: against a server that serves the
   * whole resource and its ranges honestly, a serial download into an empty
   * sink and a chunked download into a sink of the resource's length both
   * succeed and both end holding the resource.
   */
  lemma {:induction false} StrategiesAgree(
    env: Env, url: string, content: seq<Byte>, chunkSize: int, workers: nat, timer: seq<bool>,
    empty: Store, sized: Store)
    requires chunkSize > 0 && |content| > 0 && workers > 0 && env.budget > 0
    requires ServesRanges(env.answer, content) && ServesWhole(env.answer, content)
    requires |content| <= env.limit
    requires empty.data == [] && empty.pos == 0
    requires |sized.data| == |content|
    requires forall j :: 0 <= j < NumRanges(|content|, chunkSize) ==> !Fires(timer, j)
    ensures var serial := Serially(env, url, empty);
      var chunked := InChunks(env, url, |content|, chunkSize, workers, timer, sized);
      && serial.error == None && chunked.error == None
      && serial.store.data == content == chunked.store.data
  {
    var req := RequestHead(Get, url, None);
    var a := env.answer(|empty.log|, req);
    assert a.Answer? && !IsRedirect(a.head.status) && a.head.body == content;
    assert Follow(env.answer, |empty.log|, req, env.budget) == Trace(Done(a.head), req, [req]);
    var w := WriteAtResult(empty.data, env.limit, content, 0);
    assert w.data == Place([], content, 0);
    assert w.data == content;
    HonestChunkedDownload(env, url, content, chunkSize, workers, timer, sized);
  }
}

=== FILE: redirects.dfy ===
/**
 * What the redirect-following `Client.DoDeadline` does, as a function of the
 * transport's answers: `Follow` replays a request until a non-redirect answer,
 * an error, or the attempt budget runs out.
 */
module Redirects {
  import opened Common
  import opened Http
  import opened Errors

  /** How a redirect-following exchange ends. */
  datatype Exchange = Done(response: ResponseHead) | Failed(error: Error)

  /**
   * An exchange together with the request as it stands at the end (its URI
   * rewritten by the redirects followed) and every request handed to the transport.
   */
  datatype Trace = Trace(outcome: Exchange, last: RequestHead, sent: seq<RequestHead>)

  /** The number of attempts `for i := 0; i <= MaxRedirectCount; i++` allows. */
  function Budget(maxRedirectCount: int): (b: nat)
    ensures b == 0 <==> maxRedirectCount < 0
    ensures b > 0 ==> b - 1 == maxRedirectCount
  {
    if maxRedirectCount < 0 then 0 else maxRedirectCount + 1
  }

  /** The request after following the answer to it: its URI becomes the `Location`. */
  function NextHop(answer: (nat, RequestHead) -> Reply, n: nat, req: RequestHead): RequestHead {
    if answer(n, req).Answer? then req.(uri := answer(n, req).head.location) else req
  }

  /**
   * The request of the j-th attempt when the attempts before it were all
   * answered by redirects; n is the number of transport calls made before.
   */
  function HopRequest(answer: (nat, RequestHead) -> Reply, n: nat, req: RequestHead, j: nat): RequestHead
    decreases j
  {
    if j == 0 then req else HopRequest(answer, n + 1, NextHop(answer, n, req), j - 1)
  }

  /**
   * The exchange, given that the transport has already answered n calls and
   * that `budget` attempts remain.
   */
  function Follow(answer: (nat, RequestHead) -> Reply, n: nat, req: RequestHead, budget: nat): (t: Trace)
    ensures |t.sent| <= budget
    ensures t.sent == [] <==> budget == 0
    decreases budget
  {
    if budget == 0 then Trace(Failed(TooManyRedirects), req, [])
    else
      match answer(n, req)
      case Failure(e) => Trace(Failed(Transport(e)), req, [req])
      case Answer(h) =>
        if !IsRedirect(h.status) then Trace(Done(h), req, [req])
        else if |h.location| == 0 then Trace(Failed(MissingLocation), req, [req])
        else
          var rest := Follow(answer, n + 1, NextHop(answer, n, req), budget - 1);
          Trace(rest.outcome, rest.last, [req] + rest.sent)
  }

  /** Following redirects changes only the request's URI: its method and Range header are kept. */
  lemma {:induction false} FollowMovesOnlyUri(answer: (nat, RequestHead) -> Reply, n: nat, req: RequestHead, budget: nat)
    ensures var t := Follow(answer, n, req, budget);
      t.last == req.(uri := t.last.uri)
    decreases budget
  {
    if budget > 0 && Redirected(answer(n, req)) {
      FollowMovesOnlyUri(answer, n + 1, NextHop(answer, n, req), budget - 1);
    }
  }

  /**
   * `Follow` with the requests sent before carried along in `acc`: the form the
   * loop in `Client.DoDeadline` keeps, with the transport's log as `acc`.
   */
  function FollowFrom(answer: (nat, RequestHead) -> Reply, n: nat, req: RequestHead, budget: nat, acc: seq<RequestHead>): Trace
    decreases budget
  {
    if budget == 0 then Trace(Failed(TooManyRedirects), req, acc)
    else
      match answer(n, req)
      case Failure(e) => Trace(Failed(Transport(e)), req, acc + [req])
      case Answer(h) =>
        if !IsRedirect(h.status) then Trace(Done(h), req, acc + [req])
        else if |h.location| == 0 then Trace(Failed(MissingLocation), req, acc + [req])
        else FollowFrom(answer, n + 1, NextHop(answer, n, req), budget - 1, acc + [req])
  }

  /** The two forms agree: carrying `acc` along only puts it in front of what `Follow` sends. */
  lemma {:induction false} FollowFromIsFollow(
    answer: (nat, RequestHead) -> Reply, n: nat, req: RequestHead, budget: nat, acc: seq<RequestHead>)
    ensures var t := Follow(answer, n, req, budget);
      FollowFrom(answer, n, req, budget, acc) == Trace(t.outcome, t.last, acc + t.sent)
    decreases budget
  {
    if budget > 0 && Redirected(answer(n, req)) {
      var next := NextHop(answer, n, req);
      FollowFromIsFollow(answer, n + 1, next, budget - 1, acc + [req]);
      var rest := Follow(answer, n + 1, next, budget - 1);
      assert (acc + [req]) + rest.sent == acc + ([req] + rest.sent);
    }
  }

  /** One attempt of the loop, by the answer it gets: stop with an outcome, or follow the redirect. */
  lemma FollowStep(answer: (nat, RequestHead) -> Reply, n: nat, req: RequestHead, budget: nat)
    requires budget > 0
    ensures var t := Follow(answer, n, req, budget);
      var a := answer(n, req);
      && (a.Failure? ==> t == Trace(Failed(Transport(a.error)), req, [req]))
      && (a.Answer? && !IsRedirect(a.head.status) ==> t == Trace(Done(a.head), req, [req]))
      && (a.Answer? && IsRedirect(a.head.status) && |a.head.location| == 0 ==> t == Trace(Failed(MissingLocation), req, [req]))
      && (Redirected(a) ==>
            var rest := Follow(answer, n + 1, req.(uri := a.head.location), budget - 1);
            t == Trace(rest.outcome, rest.last, [req] + rest.sent))
  {
  }

  /**
   * The requests sent form a redirect chain: the first is the caller's request,
   * each next one is the previous one moved to the `Location` it was answered
   * with, and every answer but the last was a followable redirect. The request
   * left behind is the last one sent, moved once more when the last answer was
   * itself a followable redirect (the budget ran out after rewriting the URI).
   */
  lemma {:induction false} FollowHops(answer: (nat, RequestHead) -> Reply, n: nat, req: RequestHead, budget: nat)
    ensures var t := Follow(answer, n, req, budget);
      && (budget > 0 ==> t.sent[0] == req)
      && t.last == (if t.sent == [] then req
                    else if Redirected(answer(n + |t.sent| - 1, t.sent[|t.sent| - 1]))
                    then NextHop(answer, n + |t.sent| - 1, t.sent[|t.sent| - 1])
                    else t.sent[|t.sent| - 1])
      && forall j :: 0 <= j < |t.sent| - 1 ==>
           Redirected(answer(n + j, t.sent[j])) && t.sent[j + 1] == NextHop(answer, n + j, t.sent[j])
    decreases budget
  {
    var t := Follow(answer, n, req, budget);
    if budget > 0 && Redirected(answer(n, req)) {
      var next := NextHop(answer, n, req);
      var rest := Follow(answer, n + 1, next, budget - 1);
      FollowHops(answer, n + 1, next, budget - 1);
      assert t.sent == [req] + rest.sent;
      if |rest.sent| > 0 {
        assert t.sent[|t.sent| - 1] == rest.sent[|rest.sent| - 1];
        assert n + |t.sent| - 1 == (n + 1) + |rest.sent| - 1;
      }
      forall j | 0 <= j < |t.sent| - 1
        ensures Redirected(answer(n + j, t.sent[j])) && t.sent[j + 1] == NextHop(answer, n + j, t.sent[j])
      {
        if j > 0 {
          assert t.sent[j] == rest.sent[j - 1] && t.sent[j + 1] == rest.sent[j];
          assert n + j == (n + 1) + (j - 1);
        }
      }
    }
  }

  /**
   * What the loop makes of the answer `a` to its last request: a transport
   * error is returned as it is, a non-redirect answer is success, a redirect
   * without `Location` is `MissingLocation`, and a followable redirect can
   * only be last when the budget is `spent`, giving `TooManyRedirects`.
   */
  predicate EndsWith(a: Reply, outcome: Exchange, spent: bool) {
    && (a.Failure? ==> outcome == Failed(Transport(a.error)))
    && (a.Answer? && !IsRedirect(a.head.status) ==> outcome == Done(a.head))
    && (a.Answer? && IsRedirect(a.head.status) && a.head.location == "" ==> outcome == Failed(MissingLocation))
    && (Redirected(a) ==> spent && outcome == Failed(TooManyRedirects))
  }

  /** How the exchange ends is decided by the answer to the last request sent, as `EndsWith` says. */
  lemma {:induction false} FollowOutcome(answer: (nat, RequestHead) -> Reply, n: nat, req: RequestHead, budget: nat)
    ensures var t := Follow(answer, n, req, budget);
      var m := |t.sent|;
      && (m == 0 ==> t.outcome == Failed(TooManyRedirects))
      && (m > 0 ==> EndsWith(answer(n + m - 1, t.sent[m - 1]), t.outcome, m == budget))
    decreases budget
  {
    if budget > 0 {
      FollowStep(answer, n, req, budget);
      if Redirected(answer(n, req)) {
        FollowOutcome(answer, n + 1, NextHop(answer, n, req), budget - 1);
        FollowOutcomeAfterRedirect(answer, n, req, budget);
      } else {
        assert Follow(answer, n, req, budget).sent == [req];
      }
    }
  }

  /** The step of `FollowOutcome` past a followable redirect: the last answer is the rest's last answer. */
  lemma FollowOutcomeAfterRedirect(answer: (nat, RequestHead) -> Reply, n: nat, req: RequestHead, budget: nat)
    requires budget > 0 && Redirected(answer(n, req))
    requires var rest := Follow(answer, n + 1, NextHop(answer, n, req), budget - 1);
      var m := |rest.sent|;
      && (m == 0 ==> rest.outcome == Failed(TooManyRedirects))
      && (m > 0 ==> EndsWith(answer(n + 1 + m - 1, rest.sent[m - 1]), rest.outcome, m == budget - 1))
    ensures var t := Follow(answer, n, req, budget);
      var m := |t.sent|;
      m > 0 && EndsWith(answer(n + m - 1, t.sent[m - 1]), t.outcome, m == budget)
  {
    var t := Follow(answer, n, req, budget);
    var rest := Follow(answer, n + 1, NextHop(answer, n, req), budget - 1);
    FollowStep(answer, n, req, budget);
    assert t.outcome == rest.outcome && t.sent == [req] + rest.sent;
    if |rest.sent| > 0 {
      assert t.sent[|t.sent| - 1] == rest.sent[|rest.sent| - 1];
      assert n + |t.sent| - 1 == n + 1 + |rest.sent| - 1;
    } else {
      assert t.sent == [req] && budget == 1;
    }
  }

  /**
   * A chain of `hops` followable redirects: when it ends in a non-redirect
   * answer within the budget, the exchange succeeds with that answer after
   * hops + 1 calls and the request is left at the last `Location`; when the
   * budget is no larger than the chain, it fails with `TooManyRedirects`
   * after exactly `budget` calls.
   */
  lemma {:induction false} FollowChain(
    answer: (nat, RequestHead) -> Reply, n: nat, req: RequestHead, budget: nat, hops: nat)
    requires forall j :: 0 <= j < hops ==> Redirected(answer(n + j, HopRequest(answer, n, req, j)))
    ensures var t := Follow(answer, n, req, budget);
      var a := answer(n + hops, HopRequest(answer, n, req, hops));
      && (hops < budget && a.Answer? && !IsRedirect(a.head.status) ==>
            t.outcome == Done(a.head) && t.last == HopRequest(answer, n, req, hops) && |t.sent| == hops + 1)
      && (budget <= hops ==> t.outcome == Failed(TooManyRedirects) && |t.sent| == budget)
    decreases hops
  {
    if hops > 0 && budget > 0 {
      assert HopRequest(answer, n, req, 0) == req;
      assert Redirected(answer(n, req));
      var next := NextHop(answer, n, req);
      var n' := n + 1;
      forall j | 0 <= j < hops - 1
        ensures Redirected(answer(n' + j, HopRequest(answer, n', next, j)))
      {
        assert HopRequest(answer, n, req, j + 1) == HopRequest(answer, n', next, j);
        assert n + (j + 1) == n' + j;
      }
      FollowChain(answer, n', next, budget - 1, hops - 1);
      assert HopRequest(answer, n, req, hops) == HopRequest(answer, n', next, hops - 1);
      assert n + hops == n' + (hops - 1);
    }
  }

  /** A transport that only ever redirects exhausts the budget: `TooManyRedirects` after `budget` calls. */
  lemma {:induction false} FollowEndlessRedirects(
    answer: (nat, RequestHead) -> Reply, n: nat, req: RequestHead, budget: nat)
    requires forall m: nat, q: RequestHead :: Redirected(answer(m, q))
    ensures Follow(answer, n, req, budget).outcome == Failed(TooManyRedirects)
    ensures |Follow(answer, n, req, budget).sent| == budget
    decreases budget
  {
    if budget > 0 {
      assert Redirected(answer(n, req));
      FollowEndlessRedirects(answer, n + 1, NextHop(answer, n, req), budget - 1);
    }
  }
}

=== FILE: sinks.dfy ===
/**
 * The destination of a download: an `io.WriterAt` that also accepts sequential
 * writes (`io.Writer`). It stands for both sinks the client is used with, a
 * file and an in-memory buffer: a write past the end grows the sink and
 * zero-fills any gap, and the medium holds at most `limit` bytes, beyond
 * which a write comes back short with an error.
 */
module Sinks {
  import opened Common

  datatype SinkError = NegativeOffset | NoSpace

  /** The outcome of one `WriteAt`: bytes written, error, and the new contents. */
  datatype WriteResult = WriteResult(n: nat, err: Option<SinkError>, data: seq<Byte>)

  function Zeros(n: nat): (z: seq<Byte>)
    ensures |z| == n && forall i :: 0 <= i < n ==> z[i] == 0
  {
    seq(n, _ => 0)
  }

  /**
   * The contents after `b` is copied to position `off` of `data`: the bytes of
   * `b` where it lands, the old bytes elsewhere, zeros in a gap it opens.
   */
  function Place(data: seq<Byte>, b: seq<Byte>, off: nat): (r: seq<Byte>)
    ensures |r| == if |b| == 0 then |data| else Max(|data|, off + |b|)
    ensures forall i :: 0 <= i < |r| ==>
      r[i] == if off <= i < off + |b| then b[i - off] else if i < |data| then data[i] else 0
  {
    if |b| == 0 then data
    else
      var padded := if off + |b| <= |data| then data else data + Zeros(off + |b| - |data|);
      padded[..off] + b + padded[off + |b|..]
  }

  /**
   * `WriteAt(b, off)` on a sink holding `data` that can hold `limit` bytes.
   * As `io.WriterAt` demands, a short write always reports an error.
   */
  function WriteAtResult(data: seq<Byte>, limit: nat, b: seq<Byte>, off: int): (w: WriteResult)
    ensures w.n <= |b|
    ensures w.n < |b| ==> w.err.Some?
    ensures w.err.None? <==> 0 <= off && off + |b| <= limit
    ensures off < 0 ==> w.n == 0 && w.data == data
    ensures off >= 0 ==> w.data == Place(data, b[..w.n], off)
    ensures |data| <= limit ==> |w.data| <= limit
  {
    if off < 0 then WriteResult(0, Some(NegativeOffset), data)
    else if off + |b| <= limit then WriteResult(|b|, None, Place(data, b, off))
    else
      var n := if off < limit then limit - off else 0;
      WriteResult(n, Some(NoSpace), Place(data, b[..n], off))
  }

  /** Writing twice at one offset, the longer second write hides the first. */
  lemma {:induction false} PlaceAgainHides(data: seq<Byte>, b1: seq<Byte>, b2: seq<Byte>, off: nat)
    requires |b1| <= |b2|
    ensures Place(Place(data, b1, off), b2, off) == Place(data, b2, off)
  {
    var once := Place(data, b1, off);
    var twice := Place(once, b2, off);
    var direct := Place(data, b2, off);
    assert |twice| == |direct|;
    forall i | 0 <= i < |twice|
      ensures twice[i] == direct[i]
    {
      if !(off <= i < off + |b2|) {
        assert !(off <= i < off + |b1|);
        if i < |once| {
          assert twice[i] == once[i];
        }
      }
    }
  }

  class Sink {
    const limit: nat
    var data: seq<Byte>
    /** Where the next sequential `Write` goes. */
    var pos: nat

    ghost predicate Valid()
      reads this
    {
      |data| <= limit
    }

    constructor (limit: nat, initial: seq<Byte>)
      requires |initial| <= limit
      ensures Valid() && this.limit == limit && data == initial && pos == 0
    {
      this.limit := limit;
      data := initial;
      pos := 0;
    }

    /** `io.WriterAt.WriteAt`. */
    method WriteAt(b: seq<Byte>, off: int) returns (n: nat, err: Option<SinkError>)
      requires Valid()
      modifies this`data
      ensures Valid()
      ensures var w := WriteAtResult(old(data), limit, b, off);
        n == w.n && err == w.err && data == w.data
    {
      var w := WriteAtResult(data, limit, b, off);
      n, err, data := w.n, w.err, w.data;
    }

    /** `io.Writer.Write`: a write at the cursor, which then moves past the bytes written. */
    method Write(b: seq<Byte>) returns (n: nat, err: Option<SinkError>)
      requires Valid()
      modifies this`data, this`pos
      ensures Valid()
      ensures var w := WriteAtResult(old(data), limit, b, old(pos));
        n == w.n && err == w.err && data == w.data && pos == old(pos) + n
    {
      n, err := WriteAt(b, pos);
      pos := pos + n;
    }
  }
}

=== FILE: writer.dfy ===
/** `WriterAtOffset`: drives a random-access sink through the sequential `io.Writer` interface. */
module Writer {
  import opened Common
  import opened Sinks

  /**
   * A value, as in the source: `Write` has a value receiver, so nothing it does
   * can move `offset`, and every write through the same adapter lands at the
   * same position.
   */
  datatype WriterAtOffset = WriterAtOffset(src: Sink, offset: int) {

    /** Forwards `b` and the stored offset to `src.WriteAt` and returns its answer unchanged. */
    method Write(b: seq<Byte>) returns (n: nat, err: Option<SinkError>)
      requires src.Valid()
      modifies src`data
      ensures src.Valid() && src.pos == old(src.pos)
      ensures var w := WriteAtResult(old(src.data), src.limit, b, offset);
        n == w.n && err == w.err && src.data == w.data
    {
      n, err := src.WriteAt(b, offset);
    }
  }

  /**
   * Two writes through one adapter: both go to `w.offset`, so when the second is
   * at least as long as the first, the sink ends as if only the second had happened.
   */
  method WriteTwice(w: WriterAtOffset, b1: seq<Byte>, b2: seq<Byte>)
    returns (n1: nat, n2: nat)
    requires w.src.Valid() && 0 <= w.offset && w.offset + |b2| <= w.src.limit
    requires |b1| <= |b2|
    modifies w.src`data
    ensures w.src.Valid()
    ensures n1 == |b1| && n2 == |b2|
    ensures w.src.data == Place(old(w.src.data), b2, w.offset)
  {
    var e1, e2;
    n1, e1 := w.Write(b1);
    n2, e2 := w.Write(b2);
    PlaceAgainHides(old(w.src.data), b1, b2, w.offset);
  }
}
